=== FILE: README.md ===
# Task-list API: the rules under the plumbing

A Dafny model of the decision logic of a FastAPI task-list backend and of
part of its React client. The backend has these parts:

- a sliding-window rate limiter;
- an authentication middleware and the request dependencies behind it;
- a refresh-token session store;
- an owner-scoped task store and the older unscoped one;
- the password and request-body validators.

The client part covers the task-list state updates and the dashboard filter.

Every part is an immutable value with pure step functions. Some things the
code delegates are parameters with the properties the code relies on:

- JWT encoding and decoding (python-jose);
- bcrypt (passlib);
- the database's `ORDER BY`;
- Unicode character classes and case mapping;
- the dashboard's "is this date today".

Modules, in dependency order:

| module | models |
|---|---|
| `Common` | options, HTTP errors, and the string helpers the sources take from their standard libraries: `startswith`, `in`, `strip`, `split`, `join`, `lower`, floor division |
| `Config` | the settings: rate limits 200/20/100 per minute, a 60-second window, 30-minute access tokens, 7-day refresh tokens, password length 8..128 |
| `RateLimit` | `RateLimitMiddleware.dispatch` as a step over three maps of timestamps, with replays of request traces |
| `Users` | the user table, `create_usuario`, `update_last_login`, `authenticate_user` and the hasher |
| `Tokens` | token minting and `verify_token` over a codec |
| `Sessions` | the refresh-token records |
| `Tasks` | the owner-scoped task store of the backend, including the `get_tareas` listing |
| `Auth` | `AuthMiddleware.dispatch`, `get_current_active_user`, `get_current_user_for_tarea`, `refresh_access_token`, `verify_task_ownership` |
| `Handlers` | the `/token`, `/refresh`, `/logout`, `/logout/all` and task endpoints over a database value, and the paging figures |
| `Pipeline` | the two middlewares in the order a request meets them |
| `LegacyTasks` | the unscoped task store of app/crud.py |
| `Passwords` | backend/app/password_validator.py |
| `Schemas` | the field validators of backend/app/schemas.py |
| `TaskContext` | the client's task state in TaskContext.js |
| `Dashboard` | the `filteredTasks` predicate and the pending/completed sections |

Where the documented behaviour and the code disagree, the model follows the code:

- A task that belongs to another user is answered with 404 "Tarea no encontrada", the same as a missing task. The repository's tests (test_api.py:417-436) expect 401; that 401 comes from the middleware reading users through its own session, not from an ownership rule.
- `/refresh` neither stores the new refresh token nor revokes the old one.
- When storing the refresh token fails during login, the answer is 500, but the `last_login` update has already been committed and stays.

## Model

| member | source | states |
|---|---|---|
| Common.FloorDiv | backend/app/main.py:524-525 | Python's `//`: the quotient is the floor for either sign of the divisor |
| Common.Strip | backend/app/main.py:54 | `strip()`: the result is the input with whitespace removed at both ends, and itself neither starts nor ends with whitespace |
| Common.FirstField | backend/app/main.py:54 | `split(sep)[0]`: the longest prefix without the separator; it ends at the separator or at the end of the input |
| RateLimit.ClientKey | backend/app/main.py:51-56 | a non-empty `X-Forwarded-For` yields its first comma-separated entry, stripped: the key has no comma and no surrounding whitespace. Otherwise the key is the peer host, or "unknown" |
| RateLimit.Recent | backend/app/main.py:62-75 | pruning keeps exactly the timestamps strictly after the cutoff |
| RateLimit.Prune | backend/app/main.py:62-66 | after clean-up no key maps to an empty list, every timestamp is inside the window, and each client's list is its pruned old list |
| RateLimit.Record | backend/app/main.py:79-81 | appends `now` to one client's list (creating it), leaves other clients alone, and keeps the window fresh |
| RateLimit.Step | backend/app/main.py:37-116 | exempt paths leave the state unchanged and pass. Otherwise all maps are pruned and the time is appended to the chosen bucket before the comparison. The answer is 429 "Demasiadas solicitudes" iff the count exceeds that bucket's limit. Other clients and other buckets are only pruned |
| RateLimit.RecentTwice | backend/app/main.py:62-64 | pruning at two cutoffs in turn is pruning at the later one |
| RateLimit.ReplayHistory | backend/app/main.py:58-114 | after a burst of requests within one window, the client's list is the old entries still in the window followed by every request of the burst, rejected ones included |
| RateLimit.ReplayVerdict | backend/app/main.py:78-114 | the verdict of the last request of a trace is decided by the count it leaves behind |
| RateLimit.BurstRejected | backend/app/main.py:78-88 | with limit N, the (N+1)-th request from one client to one bucket within a window is refused with 429 |
| RateLimit.QuietClientAdmitted | backend/app/main.py:58-66 | once all of a client's timestamps are a window old, its next request is admitted under any positive limit |
| Users.First | app/security.py:114 | `.first()` of a filtered query: the first matching row, or no row when none matches |
| Users.ByEmail | app/security.py:114 | the lookup finds a row iff some user has the email, and the row found has it |
| Users.CreateUsuario | backend/app/crud.py:35-74 | a taken email gives 400 and is checked before the username, which gives its own 400. Otherwise one active row is appended with a fresh id, and it stores the hash, never the plaintext. Unique columns stay unique |
| Users.UpdateLastLogin | backend/app/crud.py:76-89 | sets `last_login` of that user and changes nothing else |
| Users.AuthenticateUser | app/security.py:112-119 | returns the user iff one has that email and the password verifies against its hash |
| Users.RegisterThenLogin | app/security.py:53-59 | with a sound hasher, a just-registered user authenticates with its password, and with another password exactly when bcrypt reads the same first 72 bytes from it |
| Tokens.CreateToken | app/security.py:69-75 | the token decodes to the given claims plus `exp = now + delta` until `exp`, and as expired afterwards |
| Tokens.CreateAccessToken | app/security.py:77-83 | access tokens are signed with `SECRET_KEY` and valid for exactly `ACCESS_TOKEN_EXPIRE_MINUTES` |
| Tokens.CreateRefreshToken | app/security.py:85-96 | refresh tokens carry `sub`, type "refresh", `user_id` and a stamp, are signed with `REFRESH_SECRET_KEY`, and last `REFRESH_TOKEN_EXPIRE_DAYS` |
| Tokens.CreateTokensForUser | app/security.py:121-138 | the access token carries the email, type "access" and the id; the token type is "bearer" |
| Tokens.VerifyToken | app/security.py:98-110 | expired gives 401 "El token ha expirado", any other decode failure gives no payload, and otherwise the payload is returned |
| Tokens.VerifyCreated | app/security.py:69-110 | a created token verifies to its claims until expiry, as expired after it, and not at all under another key |
| Sessions.Create | backend/app/crud.py:91-112 | stores an unrevoked record expiring `REFRESH_TOKEN_EXPIRE_DAYS` ahead; a token already stored fails with 500 |
| Sessions.Get | backend/app/crud.py:114-128 | returns a record iff the token is stored, not revoked, and `expires_at > now` (strictly) |
| Sessions.Revoke | backend/app/crud.py:130-144 | marks the record revoked and reports true, or reports false and changes nothing |
| Sessions.RevokeAll | backend/app/crud.py:146-161 | revokes every record of that user and leaves other users' records equal |
| Sessions.CreatedIsUsable | backend/app/crud.py:98-123 | a stored token serves until, and not from, its expiry second |
| Sessions.RevokeIdempotent | backend/app/crud.py:130-144 | revoking twice is revoking once, and a revoked token never serves |
| Sessions.RevokeAllEndsSessions | backend/app/crud.py:146-161 | after revoking all, none of the user's tokens serves and every other token serves as before |
| Tasks.ApplyPatch | backend/app/crud.py:275-286 | only the supplied fields change; id and owner never do |
| Tasks.PatchLaws | backend/app/crud.py:275-286 | an empty update is the identity, and applying an update twice is applying it once |
| Tasks.GetTarea | backend/app/crud.py:164-169 | finds a task iff one has both that id and that owner |
| Tasks.CreateTarea | backend/app/crud.py:261-273 | appends the caller's task with an id unused so far, keeping ids unique |
| Tasks.UpdateTarea | backend/app/crud.py:275-286 | the row with that id is patched and every other row stays |
| Tasks.DeleteTarea | backend/app/crud.py:288-291 | exactly the rows with that id go |
| Tasks.UpdateThenGet | backend/app/crud.py:275-286 | after an update the owner reads back the patched task |
| Tasks.Select | backend/app/crud.py:187-200 | the filters are conjunctive: owner, `completado`, `prioridad`, and the search on title or description |
| Tasks.Page | backend/app/crud.py:218-221 | `OFFSET`/`LIMIT` as SQLite reads them: a contiguous slice, at most `limit` long, and all that remains when `limit` is negative or large enough |
| Tasks.GetTareas | backend/app/crud.py:171-226 | an unknown sort column gives 422. The total counts the filtered rows before paging, at most `limit` items are returned, and the items are the `skip`/`limit` slice of some ordering of exactly the selected rows |
| Tasks.ListingSound | backend/app/crud.py:171-226 | every listed task is the caller's and passes the filters; a first page as large as the total lists them all |
| Tasks.TotalIgnoresPaging | backend/app/crud.py:202-219 | the total does not depend on skip, limit or sort direction |
| Tasks.SearchIsSubstring | backend/app/crud.py:194-199 | for a search text without wildcards, `ilike('%b%')` is a substring test up to ASCII case |
| Auth.BearerToken | backend/app/main.py:158 | `split(" ")[1]` after "Bearer ": the text up to the next space |
| Auth.Middleware | backend/app/main.py:123-218 | `OPTIONS` and public paths pass. A missing or non-Bearer header is 401 "No se proporcionó token de acceso". A user is admitted exactly when the header's token decodes to a valid access token whose non-empty `sub` names an active user found by email. Only a database failure gives a status other than 401 (500) |
| Auth.CurrentActiveUser | app/security.py:151-201 | every failure, expiry included, is a 401; success comes exactly when the token is a valid access token naming an existing active user, and gives that user |
| Auth.CurrentUserForTarea | app/security.py:203-266 | as above but without the type check; a task id the user does not own gives 404, and a valid token naming an active user who owns the task (or with no task id) gives that user |
| Auth.RefreshAccessToken | app/security.py:268-297 | an expired token gives "El token ha expirado" and an undecodable one "Token de refresco inválido". Success comes iff the token is valid, of type "refresh", and names a known user, and then a new pair is returned |
| Auth.VerifyTaskOwnership | app/security.py:140-149 | true iff a task with that id and owner exists and the query did not fail; never an error |
| Auth.BearerRoundTrip | backend/app/main.py:150-158 | a header built from a space-free token gives that token back |
| Auth.FreshAccessTokenAdmits | backend/app/main.py:160-197 | a fresh access token of an active user is admitted until it expires and refused as invalid afterwards |
| Auth.RefreshTokenIsNotAccess | backend/app/main.py:171-177 | a refresh token is never accepted as an access token, even when both share a key |
| Auth.PasswordBearerToken | app/security.py:25 | the dependency's token: the header is split at its first space, the scheme must be "bearer" in any case, and the token is all the rest; otherwise 401 "Not authenticated" |
| Auth.PasswordBearerRoundTrip | app/security.py:25 | a header built as "Bearer " and any token gives that token back to the dependency |
| Auth.BearerScheme | backend/app/main.py:150 | a header that starts with "Bearer " has the scheme "Bearer" |
| Auth.MiddlewareAgreesWithDependency | app/security.py:151-201 | for a header holding a single token, the middleware and the dependency read the same token, and the dependency resolves the user the middleware admits |
| Auth.ForeignTaskIsNotFound | app/security.py:249-258 | someone else's task is answered with the same 404 as a missing one |
| Auth.LogoutAllNeedsToken | backend/app/main.py:129-156 | `/logout/all` is not public: without a header it is 401 |
| Handlers.Login | backend/app/main.py:324-375 | an unknown or inactive user and a wrong password give different 401s. An active user with the right password succeeds exactly when the new refresh token is not stored yet. Success updates `last_login`, stores exactly one new refresh record for the user, and answers with the pair, "bearer" and `expires_in` = 1800. A failed store is a 500 "Error al procesar el login" that keeps the committed `last_login` update and leaves the records as they were |
| Handlers.Refresh | backend/app/main.py:383-412 | an unusable token gives 401. For a usable token, a missing or inactive owner revokes the token and gives 401, and an active owner always gets a new pair for that owner, without any change to the database |
| Handlers.Logout | backend/app/main.py:420-431 | always 204. Afterwards the token never refreshes, at any time; every other token refreshes exactly as before, and users and tasks do not change |
| Handlers.LogoutAll | backend/app/main.py:439-450 | an unauthenticated call fails with the dependency's 401 and changes nothing; an authenticated one always answers 204 and revokes all of the user's refresh tokens |
| Handlers.CrearTarea | backend/app/main.py:464-480 | the new task carries the sent `titulo`, `descripcion`, `completado` and `prioridad`, belongs to the caller, has an id no stored task has, and is appended; unique ids stay unique |
| Handlers.ObtenerTarea | backend/app/main.py:550-570 | succeeds iff the caller owns a task with that id, and is 404 otherwise |
| Handlers.ActualizarTarea | backend/app/main.py:573-595 | 404 unless owned; an owned task always updates, the answer is the patched task, and only that row changes |
| Handlers.EliminarTarea | backend/app/main.py:598-619 | 404 unless owned; otherwise the row goes and the answer is 204 |
| Handlers.ListarTareas | backend/app/main.py:488-538 | the 422 of a bad sort column passes through, and `limit = 0` is the generic 500. Otherwise the call succeeds with the store's items, the pre-paging total, the size, and the page figures |
| Handlers.PagingIsCeiling | backend/app/main.py:521-528 | for a positive limit, `pages` is the ceiling of `total / limit` and `skip` lies inside page `page` |
| Handlers.PagingExample | backend/app/main.py:521-528 | skip 5, limit 5 and total 15 give page 2 of 3 |
| Handlers.LoginThenRefresh | backend/app/main.py:324-412 | a successful login adds exactly one session, whose token refreshes until it expires |
| Handlers.LogoutAllEndsRefresh | backend/app/main.py:383-450 | after `/logout/all` the user's refresh tokens are refused and other users' tokens refresh as before |
| Handlers.ForeignTaskLooksMissing | backend/app/main.py:550-619 | reading, updating and deleting another user's task all give 404 and change nothing |
| Handlers.CreateReadDelete | backend/app/main.py:464-619 | a created task reads back for its owner; after deletion it is 404 |
| Pipeline.Serve | backend/app/main.py:277-278 | the limiter runs first, and a 429 is answered without authentication. Otherwise the middleware's decision is the answer, and the limiter's state is the same either way |
| Pipeline.LimitBeforeCredentials | backend/app/main.py:277-278 | a client over its limit gets the same answer whatever credentials it presents |
| Pipeline.DeniedRequestsCount | backend/app/main.py:78-114 | a request the authentication refuses still takes its place in the window |
| Pipeline.ExemptPathsPassThrough | backend/app/main.py:39-49 | the paths the limiter exempts are public and leave every counter untouched |
| Pipeline.LoginOnlyLimited | backend/app/main.py:78-88 | `/token` is never refused for credentials, only for volume, and at exactly the login threshold |
| LegacyTasks.Get | app/crud.py:8-19 | finds a task iff one has that id; owners do not exist here |
| LegacyTasks.SafeSkip | app/crud.py:32 | a negative skip becomes 0 and others stay |
| LegacyTasks.SafeLimit | app/crud.py:33 | the limit is clamped into 1..500 |
| LegacyTasks.Filtered | app/crud.py:35-39 | keeps exactly the tasks matching `completado` when given, in id order |
| LegacyTasks.List | app/crud.py:22-45 | the page is the slice of the id-ordered filtered list at the clamped skip, with the clamped limit |
| LegacyTasks.Create | app/crud.py:48-61 | appends a task with an unused id and keeps the table in id order |
| LegacyTasks.Apply | app/crud.py:71-74 | only the supplied fields change |
| LegacyTasks.Change | app/crud.py:64-84 | nothing iff the id is absent; otherwise only that task is patched |
| LegacyTasks.Delete | app/crud.py:87-102 | nothing iff the id is absent; otherwise exactly that task is removed and returned |
| LegacyTasks.ChangeKeepsOrder | app/crud.py:64-84 | an update keeps id order and reads back patched |
| LegacyTasks.DeleteThenGet | app/crud.py:87-102 | after a delete the id is gone and the order kept |
| LegacyTasks.DeleteMissing | app/crud.py:64-102 | update and delete of an absent id both answer nothing |
| LegacyTasks.PagesFollowIds | app/crud.py:22-45 | consecutive pages follow each other in id order |
| Passwords.ValidateCustomRules | backend/app/password_validator.py:35-72 | the messages are exactly the common-password, repeated-triple and sequence checks, in that order |
| Passwords.CustomErrorsDistinct | backend/app/password_validator.py:47-70 | at most one message per rule, three at most, and none iff the password passes all three |
| Passwords.ValidatePasswordStrength | backend/app/password_validator.py:74-122 | valid iff the schema passes and no custom rule fails. The custom rules are consulted only after the schema passes. Failure messages are the `"; "`-join of the applicable ones |
| Passwords.LengthMessages | backend/app/password_validator.py:92-96 | at most one length message, and "too short" comes first |
| Passwords.WrongLengthRefused | backend/app/password_validator.py:86-112 | a password outside 8..128 is refused |
| Passwords.CustomRulesOnlyAfterSchema | backend/app/password_validator.py:86-119 | on schema failure, the common-password list plays no part |
| Passwords.AcceptedPassword | backend/app/password_validator.py:74-122 | an accepted password has the right length, no space, no triple, no sequence, and is not common |
| Passwords.CheckPasswordStrength | backend/app/password_validator.py:158-225 | `length` and `has_repeating_chars` agree with the rules. The score is in 0..7 and penalised for spaces, triples and common passwords. "muy_fuerte" is never produced |
| Passwords.StrengthMonotone | backend/app/password_validator.py:213-223 | the strength label never drops as the score rises |
| Passwords.RepeatedDigitsExample | backend/app/password_validator.py:168-211 | "Password111!" has repeating characters and scores at most 5 |
| Passwords.AnalysisAgreesWithRules | backend/app/password_validator.py:52-55 | a password the analysis flags for repeats is refused by the validator |
| Schemas.LengthError | backend/app/schemas.py:13 | a length bound passes iff the length is in range, and otherwise reports which bound failed |
| Schemas.ValidateUsernameAsWritten | backend/app/schemas.py:13-20 | accepts iff the length is 3..50 and the pattern matches as `re.match` reads `$` |
| Schemas.ValidateUsername | backend/app/schemas.py:13-20 | accepts iff the length is 3..50 and every character is an ASCII letter, digit, `_` or `-` |
| Schemas.UsernameRegexDifference | backend/app/schemas.py:18 | the pattern as written accepts exactly the intended names plus those followed by a single final newline |
| Schemas.TrailingNewlineUsername | backend/app/schemas.py:18 | "abc\n" is accepted as written and refused when corrected |
| Schemas.ValidatePassword | backend/app/schemas.py:24-32 | a registration password is valid iff its length is in range and `validate_password_strength` accepts it; that function's message becomes the error |
| Schemas.ParseRegistration | backend/app/schemas.py:10-32 | a registration is valid iff all three fields are present and pass their checks, the username check being the pattern as written; otherwise it reports one to three errors |
| Schemas.RegisteredFields | backend/app/schemas.py:10-32 | a valid registration's username has 3 to 50 characters, all letters, digits, `_` or `-`, save possibly one final newline; its password passes the strength rules |
| Schemas.PrioridadError | backend/app/schemas.py:73 | priorities are 1..3 |
| Schemas.ParseTaskCreate | backend/app/schemas.py:68-73 | a valid body obeys the field bounds and takes the defaults `false` and 1; a missing title or a null completado or priority is invalid |
| Schemas.TaskCreateRoundTrip | backend/app/schemas.py:68-73 | fields within bounds, sent as they are, parse back to themselves |
| Schemas.TaskCreateDefaults | backend/app/schemas.py:70-73 | a body with only a title gets no description, `completado` false and priority 1 |
| Schemas.ParseTaskUpdate | backend/app/schemas.py:99-104 | every field is optional; a present field obeys the creation bounds, and the body records which fields were sent |
| Schemas.AsPatch | backend/app/models.py:39-42 | a null sent to a NOT NULL column is not a patch; otherwise the patch carries exactly the sent fields, each with the value sent |
| Schemas.UpdateKeepsBounds | backend/app/schemas.py:99-104 | patching a task within bounds with a valid update leaves it within bounds |
| TaskContext.Message | frontend/src/contexts/TaskContext.js:32 | `detail \|\| fallback`: an absent or empty detail gives the fallback |
| TaskContext.FailAsWritten | frontend/src/contexts/TaskContext.js:31-51 | a failure stores the detail, or "Error en la operación", and keeps the list |
| TaskContext.Fail | frontend/src/contexts/TaskContext.js:85-91 | with the guard as intended, a failure stores the detail or the operation's own fallback |
| TaskContext.FallbackNeverShown | frontend/src/contexts/TaskContext.js:87 | the two differ exactly when the server sent no usable detail |
| TaskContext.ReplaceById | frontend/src/contexts/TaskContext.js:124-128 | the entries with that id are replaced and the others stay in place |
| TaskContext.RemoveById | frontend/src/contexts/TaskContext.js:145 | exactly the entries with that id go |
| TaskContext.RemoveKeepsOrder | frontend/src/contexts/TaskContext.js:145 | removal works piecewise, so the survivors keep their order |
| TaskContext.FetchTasks | frontend/src/contexts/TaskContext.js:53-95 | success replaces the list and the pagination with the server's and clears the error; failure keeps both and stores the detail or "Error en la operación". Loading ends either way |
| TaskContext.CreateTask | frontend/src/contexts/TaskContext.js:97-116 | success puts the new task first, ahead of the old list; failure keeps the list and stores the detail or "Error en la operación" |
| TaskContext.UpdateTask | frontend/src/contexts/TaskContext.js:118-137 | success replaces the entries with that id, with the same length; failure keeps the list and stores the detail or "Error en la operación" |
| TaskContext.DeleteTask | frontend/src/contexts/TaskContext.js:139-154 | success removes every entry with that id and keeps the others in their order, as `filter` does; failure keeps the list and stores the detail or "Error en la operación" |
| TaskContext.ToggleTaskStatus | frontend/src/contexts/TaskContext.js:156-158 | the request names `completado` alone. On success every entry with that id becomes the server's copy and the others stay; on failure the list stays and the detail or "Error en la operación" is stored |
| TaskContext.ClearError | frontend/src/contexts/TaskContext.js:160-162 | the error becomes null and nothing else changes |
| TaskContext.CreateThenDelete | frontend/src/contexts/TaskContext.js:97-154 | creating then deleting a task with a fresh id gives back the old list |
| TaskContext.FailureKeepsTasks | frontend/src/contexts/TaskContext.js:85-152 | no failed call changes the list |
| Dashboard.Filtered | frontend/src/pages/Dashboard.js:201-209 | a task is shown iff it matches the text, the priority and the "today" condition |
| Dashboard.NoFilterShowsAll | frontend/src/pages/Dashboard.js:202-207 | with no search, no priority and "today" off, every task shows, in order |
| Dashboard.PriorityFilter | frontend/src/pages/Dashboard.js:205 | a set priority keeps only that priority; no priority restricts nothing |
| Dashboard.SectionsPartition | frontend/src/pages/Dashboard.js:298-372 | pending and completed split the shown tasks: each task is in exactly one section |
| Dashboard.ChipCountsAll | frontend/src/pages/Dashboard.js:360-372 | the chip counts completed tasks over all tasks: never fewer than the section shows, and as many with no filter |

## Left out

- Concurrency: the limiter's maps are shared by concurrent requests. Requests are modelled one at a time, in sequence.
- JWT signing and bcrypt are parameters. `Tokens.Sound` and `Users.Sound` state what the code relies on from them; hash timing and work factor are not modelled.
- Users.Sound: bcrypt's truncation of a password to its first 72 bytes is the abstract `key` of the hasher; the UTF-8 encoding that decides where those 72 bytes end is not modelled, so no password is promised to differ from another in the key.
- The third-party password schema is a predicate parameter, and `Passwords.Respects` assumes only its length bounds and its no-space rule. Unicode `isupper`/`islower`/`isdigit` and `lower()` are character-class parameters; a `lower()` that turns one character into several is not modelled.
- `COMMON_PASSWORDS` is a parameter, because the backend's settings file is not part of this model. For the same reason, `MAX_PASSWORD_LENGTH` = 128 is the value the backend's password tests use.
- SQLAlchemy sessions, commit and rollback, and database errors other than a duplicate refresh token are left out. The exceptions are a failure inside the middleware (`dbError`) and a failing ownership query (`dbFails`), which are explicit parameters.
- Registration (`/register`), the health check, CORS, the lifespan hook, the `/password/*` endpoint wrappers and the exception handlers are HTTP wiring.
- EmailStr validation is a check parameter; email normalisation is not modelled.
- Auth.RefreshAccessToken: a refresh token whose `sub` is absent is looked up under the text "None", as `str(None)` gives. Beyond that, the model does not follow Python's `str()` of non-text claims.
- Auth.Middleware: the middleware reads users through its own database session; here it reads the same table the handlers use.
- Auth.MiddlewareAgreesWithDependency: holds only when no further space follows the token. With one, the middleware reads up to that space and the dependency reads everything after "Bearer ", so the two may decide differently. The scheme's `lower()` is ASCII-only here.
- Rate-limit timestamps are exact reals. The rounding of the float `time.time()` returns, and of the float subtraction in the window test, is not modelled.
- In the client, a failed answer's `detail` is text or absent. The list of `{loc, msg, type}` objects a 422 validation error carries (backend/app/main.py:240-247) is not modelled; the client would store that list, which is truthy even when empty, as the error.
- The 429 retry with its back-off, and the one-second throttle of `fetchTasks`, are timers and asynchronous flow. The client state is modelled only for answers other than 429.
- frontend/src/services/api.js and AuthContext.js are network and storage glue.
- The dashboard's "today" comparison (a `Date` reading) and JavaScript's `toLowerCase` are parameters.
- The `except Exception` branch of `validate_password_strength`, which reports "Error en la validación: " followed by the exception's text, depends on the third-party schema raising. It is not modelled.
- Tasks.GetTareas: the database's `ORDER BY` is a parameter that must permute the rows, so the listed items are stated to be a slice of some permutation of the selected rows, not of a particular order. The sort field must be one of the table's columns; `getattr` would also accept other attributes of the model class, such as the `usuario` relationship, and those are not modelled.
- LegacyTasks.Apply: a null `titulo` sent to the NOT NULL column of the legacy table is not modelled, because app/models.py is not part of this model.

## Findings

| source | as written | input that shows it | evidently intended | confidence | as-written member | corrected member |
|---|---|---|---|---|---|---|
| backend/app/schemas.py:18 | `re.match(r'^[a-zA-Z0-9_-]+$', v)`, where `$` also matches just before a final newline | the username "abc\n" is accepted | only ASCII letters, digits, `_` and `-` | high, not executed | Schemas.ValidateUsernameAsWritten, Schemas.TrailingNewlineUsername | Schemas.ValidateUsername, Schemas.UsernameRegexDifference |
| frontend/src/contexts/TaskContext.js:87 | `if (!error.response?.status === 429)` compares a boolean with 429, so it is always false. The per-operation fallback message (also at lines 110, 131 and 148) is never stored | a failed fetch whose response has no `detail` shows "Error en la operación" | show the operation's own message ("Error al cargar tareas", ...) for answers other than 429 | medium, not executed | TaskContext.FailAsWritten, TaskContext.FallbackNeverShown | TaskContext.Fail |

=== FILE: auth.dfy ===
/** Authentication: the middleware's decision chain
    (backend/app/main.py, `AuthMiddleware.dispatch`) and the request
    dependencies of app/security.py (`get_current_active_user`,
    `get_current_user_for_tarea`, `refresh_access_token`,
    `verify_task_ownership`). Each is an ordered list of checks in which the
    first failing check decides the answer. */
module Auth {
  import opened Common
  import Users
  import Tokens
  import Tasks
  import Config

  /** Paths the middleware lets through without a token (matched exactly). */
  const PUBLIC_PATHS: seq<string> :=
    ["/register", "/login", "/token", "/refresh", "/logout", "/health", "/docs",
     "/openapi.json", "/redoc", "/invalid-json", "/password/requirements",
     "/password/check-strength", "/password/validate"]

  /** The parts of a request the middleware reads. */
  datatype Request = Request(verb: string, path: string, authorization: Option<string>)

  /** Forward without looking (preflight or public path), forward with the
      authenticated user attached, or answer with an error. */
  datatype Decision = Pass | Admit(user: Users.User) | Deny(error: HttpError)

  const NO_TOKEN: HttpError := HttpError(401, "No se proporcionó token de acceso")
  const BAD_TOKEN: HttpError := HttpError(401, "Token de acceso inválido")
  const NO_USER: HttpError := HttpError(401, "Usuario no encontrado")
  const INACTIVE: HttpError := HttpError(401, "Usuario inactivo")
  const NO_CREDENTIALS: HttpError := HttpError(401, "No se pudo validar las credenciales")
  const TASK_NOT_FOUND: HttpError := HttpError(404, "Tarea no encontrada")
  const BAD_REFRESH: HttpError := HttpError(401, "Token de refresco inválido")

  const BEARER_PREFIX: string := "Bearer "

  /** `auth_header.split(" ")[1]` for a header that starts with "Bearer ":
      the text after the prefix up to the next space. */
  function BearerToken(header: string): (t: string)
    requires StartsWith(header, BEARER_PREFIX)
    ensures ' ' !in t
    ensures StartsWith(header, BEARER_PREFIX + t)
    ensures |BEARER_PREFIX + t| == |header| || header[|BEARER_PREFIX + t|] == ' '
  {
    var rest := header[|BEARER_PREFIX|..];
    var t := FirstField(rest, ' ');
    assert header == BEARER_PREFIX + rest;
    assert (BEARER_PREFIX + t) == header[..|BEARER_PREFIX + t|];
    t
  }

  const NOT_AUTHENTICATED: HttpError := HttpError(401, "Not authenticated")

  /** The token FastAPI's `OAuth2PasswordBearer` hands to
      `get_current_active_user`: the header is cut at its first space, the
      part before it must read "bearer" in any letter case, and the token is
      everything after that space, further spaces included (empty when there
      is no space). A missing header or another scheme is 401
      "Not authenticated". */
  function PasswordBearerToken(authorization: Option<string>): (r: Result<string>)
    ensures r.Ok? <==> authorization.Some? && AsciiLower(FirstField(authorization.value, ' ')) == "bearer"
    ensures r.Err? ==> r == Err(NOT_AUTHENTICATED)
    ensures r.Ok? ==>
              var scheme := FirstField(authorization.value, ' ');
              || authorization.value == scheme + " " + r.value
              || (authorization.value == scheme && r.value == "")
  {
    if authorization.None? then Err(NOT_AUTHENTICATED)
    else
      var h := authorization.value;
      var scheme := FirstField(h, ' ');
      if AsciiLower(scheme) != "bearer" then Err(NOT_AUTHENTICATED)
      else if |scheme| == |h| then
        assert h[..|scheme|] == h;
        Ok("")
      else
        assert h == h[..|scheme|] + [h[|scheme|]] + h[|scheme| + 1..];
        Ok(h[|scheme| + 1..])
  }

  /** `AuthMiddleware.dispatch`. `dbError` is the message of an exception
      raised while the middleware reads the user table, if one is. */
  function Middleware(req: Request, codec: Tokens.Codec, keys: Tokens.Keys, users: Users.UserTable,
                      now: int, dbError: Option<string>): (d: Decision)
    ensures d.Pass? <==> req.verb == "OPTIONS" || req.path in PUBLIC_PATHS
    ensures d.Deny? && d.error.status != 401 ==> dbError.Some? && d.error.status == 500
    ensures (req.authorization.None? || !StartsWith(req.authorization.value, BEARER_PREFIX)) && !d.Pass? ==>
              d == Deny(NO_TOKEN)
    ensures d.Admit? ==>
              && req.authorization.Some? && StartsWith(req.authorization.value, BEARER_PREFIX)
              && var c := codec.decode(BearerToken(req.authorization.value), keys.secret, now);
                 && c.Valid? && c.claims.sub == Some(d.user.email) && c.claims.typ == Some(Tokens.ACCESS)
                 && d.user.email != ""
                 && Users.ByEmail(users, d.user.email) == Some(d.user)
                 && d.user.isActive
    ensures req.verb != "OPTIONS" && req.path !in PUBLIC_PATHS && dbError.None?
            && req.authorization.Some? && StartsWith(req.authorization.value, BEARER_PREFIX) ==>
              var c := codec.decode(BearerToken(req.authorization.value), keys.secret, now);
              c.Valid? && c.claims.sub.Some? && c.claims.sub.value != "" && c.claims.typ == Some(Tokens.ACCESS)
              && Users.ByEmail(users, c.claims.sub.value).Some? && Users.ByEmail(users, c.claims.sub.value).value.isActive
              ==> d == Admit(Users.ByEmail(users, c.claims.sub.value).value)
  {
    if req.verb == "OPTIONS" || req.path in PUBLIC_PATHS then Pass
    else if req.authorization.None? || !StartsWith(req.authorization.value, BEARER_PREFIX) then Deny(NO_TOKEN)
    else
      match codec.decode(BearerToken(req.authorization.value), keys.secret, now)
      case Expired => Deny(BAD_TOKEN)
      case Invalid => Deny(BAD_TOKEN)
      case Valid(claims) =>
        var email := claims.sub.GetOr("");
        if email == "" then Deny(BAD_TOKEN)
        else if claims.typ.GetOr("") != Tokens.ACCESS then Deny(BAD_TOKEN)
        else if dbError.Some? then Deny(ServerError("Error en autenticación", dbError.value))
        else match Users.ByEmail(users, email)
          case None => Deny(NO_USER)
          case Some(u) => if !u.isActive then Deny(INACTIVE) else Admit(u)
  }

  /** `get_current_active_user`: the active user named by a valid access
      token. Every failure, expiry included, is a 401. */
  function CurrentActiveUser(token: string, codec: Tokens.Codec, keys: Tokens.Keys, users: Users.UserTable,
                             now: int): (r: Result<Users.User>)
    ensures r.Err? ==> r.error.status == 401
    ensures !codec.decode(token, keys.secret, now).Valid? ==> r == Err(BAD_TOKEN)
    ensures r.Ok? ==>
              && codec.decode(token, keys.secret, now).Valid?
              && codec.decode(token, keys.secret, now).claims.sub == Some(r.value.email)
              && codec.decode(token, keys.secret, now).claims.typ == Some(Tokens.ACCESS)
              && Users.ByEmail(users, r.value.email) == Some(r.value)
              && r.value.isActive
    ensures var c := codec.decode(token, keys.secret, now);
            c.Valid? && c.claims.sub.Some? && c.claims.typ == Some(Tokens.ACCESS)
            && Users.ByEmail(users, c.claims.sub.value).Some? && Users.ByEmail(users, c.claims.sub.value).value.isActive
            ==> r == Ok(Users.ByEmail(users, c.claims.sub.value).value)
  {
    match codec.decode(token, keys.secret, now)
    case Expired => Err(BAD_TOKEN)
    case Invalid => Err(BAD_TOKEN)
    case Valid(claims) =>
      if claims.sub.None? then Err(BAD_TOKEN)
      else if claims.typ != Some(Tokens.ACCESS) then Err(BAD_TOKEN)
      else match Users.ByEmail(users, claims.sub.value)
        case None => Err(NO_USER)
        case Some(u) => if !u.isActive then Err(INACTIVE) else Ok(u)
  }

  /** `get_current_user_for_tarea`: like the above but without the type check
      and with "No se pudo validar las credenciales" for a missing subject;
      when a task id is given, a task the user does not own is 404. */
  function CurrentUserForTarea(token: string, tareaId: Option<int>, codec: Tokens.Codec, keys: Tokens.Keys,
                               users: Users.UserTable, tasks: Tasks.TaskTable, now: int): (r: Result<Users.User>)
    ensures r.Err? ==> r.error.status == 401 || r.error == TASK_NOT_FOUND
    ensures r.Ok? ==>
              && codec.decode(token, keys.secret, now).Valid?
              && codec.decode(token, keys.secret, now).claims.sub == Some(r.value.email)
              && Users.ByEmail(users, r.value.email) == Some(r.value)
              && r.value.isActive
    ensures r.Ok? && tareaId.Some? ==> Tasks.GetTarea(tasks, tareaId.value, r.value.id).Some?
    ensures r == Err(TASK_NOT_FOUND) ==>
              && tareaId.Some?
              && codec.decode(token, keys.secret, now).Valid?
              && codec.decode(token, keys.secret, now).claims.sub.Some?
              && var u := Users.ByEmail(users, codec.decode(token, keys.secret, now).claims.sub.value);
                 u.Some? && u.value.isActive && Tasks.GetTarea(tasks, tareaId.value, u.value.id).None?
    ensures var c := codec.decode(token, keys.secret, now);
            c.Valid? && c.claims.sub.Some?
            && Users.ByEmail(users, c.claims.sub.value).Some? && Users.ByEmail(users, c.claims.sub.value).value.isActive
            && (tareaId.None? || Tasks.GetTarea(tasks, tareaId.value, Users.ByEmail(users, c.claims.sub.value).value.id).Some?)
            ==> r == Ok(Users.ByEmail(users, c.claims.sub.value).value)
  {
    match codec.decode(token, keys.secret, now)
    case Expired => Err(BAD_TOKEN)
    case Invalid => Err(BAD_TOKEN)
    case Valid(claims) =>
      if claims.sub.None? then Err(NO_CREDENTIALS)
      else match Users.ByEmail(users, claims.sub.value)
        case None => Err(NO_USER)
        case Some(u) =>
          if !u.isActive then Err(INACTIVE)
          else if tareaId.Some? && Tasks.GetTarea(tasks, tareaId.value, u.id).None? then Err(TASK_NOT_FOUND)
          else Ok(u)
  }

  /** Python's `str()` of an optional string claim. */
  function PyStr(s: Option<string>): string {
    match s
    case Some(v) => v
    case None => "None"
  }

  /** `refresh_access_token`: an expired refresh token is "El token ha
      expirado"; one that does not decode under `REFRESH_SECRET_KEY` or is not
      of type "refresh" is "Token de refresco inválido"; an unknown subject is
      "Usuario no encontrado"; otherwise a new pair for that user. The active
      flag is not consulted. */
  function RefreshAccessToken(token: string, codec: Tokens.Codec, keys: Tokens.Keys, users: Users.UserTable,
                              now: int, stampMs: int): (r: Result<Tokens.TokenPair>)
    ensures codec.decode(token, keys.refreshSecret, now) == Tokens.Expired ==> r == Err(Tokens.TOKEN_EXPIRED)
    ensures codec.decode(token, keys.refreshSecret, now) == Tokens.Invalid ==> r == Err(BAD_REFRESH)
    ensures r.Ok? <==>
              && codec.decode(token, keys.refreshSecret, now).Valid?
              && codec.decode(token, keys.refreshSecret, now).claims.typ == Some(Tokens.REFRESH)
              && Users.ByEmail(users, PyStr(codec.decode(token, keys.refreshSecret, now).claims.sub)).Some?
    ensures r.Ok? ==>
              var u := Users.ByEmail(users, PyStr(codec.decode(token, keys.refreshSecret, now).claims.sub)).value;
              r.value == Tokens.CreateTokensForUser(codec, keys, u, now, stampMs)
  {
    match Tokens.VerifyToken(codec, token, keys.refreshSecret, now)
    case Err(e) => Err(e)
    case Ok(payload) =>
      if payload.None? || payload.value.typ != Some(Tokens.REFRESH) then Err(BAD_REFRESH)
      else match Users.ByEmail(users, PyStr(payload.value.sub))
        case None => Err(NO_USER)
        case Some(u) => Ok(Tokens.CreateTokensForUser(codec, keys, u, now, stampMs))
  }

  /** `verify_task_ownership`: whether the task exists with that owner; a
      failing query (`dbFails`) answers false instead of raising. */
  function VerifyTaskOwnership(tasks: Tasks.TaskTable, tareaId: int, userId: int, dbFails: bool): (r: bool)
    ensures r <==> !dbFails && exists i :: 0 <= i < |tasks| && Tasks.Owned(tasks[i], tareaId, userId)
  {
    !dbFails && Tasks.GetTarea(tasks, tareaId, userId).Some?
  }

  /* ---------- properties of the chain ---------- */

  /** The request a client sends with a bearer token. */
  function WithBearer(verb: string, path: string, token: string): Request {
    Request(verb, path, Some(BEARER_PREFIX + token))
  }

  lemma BearerRoundTrip(token: string)
    requires ' ' !in token
    ensures StartsWith(BEARER_PREFIX + token, BEARER_PREFIX)
    ensures BearerToken(BEARER_PREFIX + token) == token
  {
    var h := BEARER_PREFIX + token;
    assert h[|BEARER_PREFIX|..] == token;
    FirstFieldWhole(token, ' ');
  }

  /** The dependency gives back whatever followed "Bearer ", spaces and all. */
  lemma PasswordBearerRoundTrip(token: string)
    ensures PasswordBearerToken(Some(BEARER_PREFIX + token)) == Ok(token)
  {
    var h := BEARER_PREFIX + token;
    BearerScheme(h);
    assert AsciiLower("Bearer") == "bearer";
    assert h[|"Bearer"| + 1..] == token;
  }

  /** The scheme of a header that starts with "Bearer " is "Bearer". */
  lemma BearerScheme(h: string)
    requires StartsWith(h, BEARER_PREFIX)
    ensures FirstField(h, ' ') == "Bearer"
  {
    var r := FirstField(h, ' ');
    assert h[..|BEARER_PREFIX|] == BEARER_PREFIX;
    assert h[6] == ' ' && forall i :: 0 <= i < 6 ==> h[i] == BEARER_PREFIX[i] != ' ';
    assert |r| == 6;
    assert r == h[..6];
  }

  lemma {:induction false} FirstFieldWhole(s: string, sep: char)
    requires sep !in s
    ensures FirstField(s, sep) == s
    decreases |s|
  {
    if |s| > 0 {
      FirstFieldWhole(s[1..], sep);
      assert s == [s[0]] + s[1..];
    }
  }

  /** A freshly issued access token of an active user lets a protected
      request through, attached to that user, until it expires; afterwards
      the same request is refused as an invalid token. */
  lemma FreshAccessTokenAdmits(codec: Tokens.Codec, keys: Tokens.Keys, users: Users.UserTable, u: Users.User,
                               issued: int, stampMs: int, now: int, verb: string, path: string)
    requires Tokens.Sound(codec)
    requires Users.ByEmail(users, u.email) == Some(u) && u.isActive && u.email != ""
    requires verb != "OPTIONS" && path !in PUBLIC_PATHS
    ensures var token := Tokens.CreateTokensForUser(codec, keys, u, issued, stampMs).accessToken;
            var d := Middleware(WithBearer(verb, path, token), codec, keys, users, now, None);
            && (now <= issued + Config.ACCESS_TOKEN_SECONDS ==> d == Admit(u))
            && (now > issued + Config.ACCESS_TOKEN_SECONDS ==> d == Deny(BAD_TOKEN))
  {
    var token := Tokens.CreateTokensForUser(codec, keys, u, issued, stampMs).accessToken;
    assert token == codec.encode(Tokens.AccessData(u).(exp := Some(issued + Config.ACCESS_TOKEN_SECONDS)), keys.secret);
    BearerRoundTrip(token);
  }

  /** A refresh token presented as an access token is refused, even when
      both token classes share one signing key. */
  lemma RefreshTokenIsNotAccess(codec: Tokens.Codec, keys: Tokens.Keys, users: Users.UserTable, u: Users.User,
                                issued: int, stampMs: int, now: int, verb: string, path: string,
                                dbError: Option<string>)
    requires Tokens.Sound(codec)
    requires verb != "OPTIONS" && path !in PUBLIC_PATHS
    ensures var token := Tokens.CreateRefreshToken(codec, keys, u, issued, stampMs);
            Middleware(WithBearer(verb, path, token), codec, keys, users, now, dbError) == Deny(BAD_TOKEN)
            && CurrentActiveUser(token, codec, keys, users, now) == Err(BAD_TOKEN)
  {
    var token := Tokens.CreateRefreshToken(codec, keys, u, issued, stampMs);
    BearerRoundTrip(token);
    if keys.secret != keys.refreshSecret {
      assert codec.decode(token, keys.secret, now) == Tokens.Invalid;
    }
  }

  /** Whomever the middleware admits with a header holding a single token, the
      handler's own dependency reads the same token and resolves it to the
      same user. */
  lemma MiddlewareAgreesWithDependency(req: Request, codec: Tokens.Codec, keys: Tokens.Keys,
                                       users: Users.UserTable, now: int)
    requires Middleware(req, codec, keys, users, now, None).Admit?
    requires ' ' !in req.authorization.value[|BEARER_PREFIX|..]
    ensures PasswordBearerToken(req.authorization) == Ok(BearerToken(req.authorization.value))
    ensures CurrentActiveUser(PasswordBearerToken(req.authorization).value, codec, keys, users, now)
              == Ok(Middleware(req, codec, keys, users, now, None).user)
  {
    var h := req.authorization.value;
    var rest := h[|BEARER_PREFIX|..];
    assert h == BEARER_PREFIX + rest;
    PasswordBearerRoundTrip(rest);
    FirstFieldWhole(rest, ' ');
  }

  /** Asking for another user's task and asking for a missing task get the
      same 404. */
  lemma ForeignTaskIsNotFound(token: string, tareaId: int, codec: Tokens.Codec, keys: Tokens.Keys,
                              users: Users.UserTable, tasks: Tasks.TaskTable, now: int)
    requires CurrentUserForTarea(token, None, codec, keys, users, tasks, now).Ok?
    requires var u := CurrentUserForTarea(token, None, codec, keys, users, tasks, now).value;
             forall i :: 0 <= i < |tasks| && tasks[i].id == tareaId ==> tasks[i].owner != u.id
    ensures CurrentUserForTarea(token, Some(tareaId), codec, keys, users, tasks, now) == Err(TASK_NOT_FOUND)
  {
  }

  /** `/logout/all` is not public: without a bearer header it is refused
      before anything else is looked at. */
  lemma LogoutAllNeedsToken(codec: Tokens.Codec, keys: Tokens.Keys, users: Users.UserTable, now: int,
                            dbError: Option<string>)
    ensures Middleware(Request("POST", "/logout/all", None), codec, keys, users, now, dbError) == Deny(NO_TOKEN)
  {
  }
}

=== FILE: common.dfy ===
/** Shared vocabulary: optional values, HTTP-style error results, and the few
    string operations (prefix test, substring test, whitespace stripping,
    splitting, joining, case folding) that the Python and JavaScript sources
    take from their standard libraries. */
module Common {

  /** Python `None`/value and JavaScript `null`/value. */
  datatype Option<+T> = None | Some(value: T) {
    function GetOr(default: T): T {
      match this
      case Some(v) => v
      case None => default
    }
  }

  /** An `HTTPException` (or a `JSONResponse` error) as status code and detail. */
  datatype HttpError = HttpError(status: int, detail: string)

  /** A 500 whose detail is the source's context string followed by the text
      of the exception that caused it (`f"{context}: {str(e)}"`). */
  function ServerError(context: string, cause: string): (e: HttpError)
    ensures e.status == 500 && StartsWith(e.detail, context + ": ")
  {
    HttpError(500, context + ": " + cause)
  }

  /** A value, or the HTTP error the source raises instead. */
  datatype Result<+T> = Ok(value: T) | Err(error: HttpError)

  /* ---------- prefixes and substrings ---------- */

  /** Python `s.startswith(prefix)`. */
  predicate StartsWith(s: string, prefix: string) {
    |prefix| <= |s| && s[..|prefix|] == prefix
  }

  /** Python `sub in s` / JavaScript `s.includes(sub)`. */
  predicate Contains(s: string, sub: string)
    decreases |s|
  {
    StartsWith(s, sub) || (|s| > 0 && Contains(s[1..], sub))
  }

  /** The empty string occurs in every string. */
  lemma EmptyContained(s: string)
    ensures Contains(s, "")
  {
    assert StartsWith(s, "");
  }

  /* ---------- whitespace ---------- */

  /** Python `str.isspace` for one character: the ASCII separators and the
      Unicode characters Python treats as whitespace. */
  predicate IsSpace(c: char) {
    || c == ' ' || c == '\t' || c == '\n' || c == '\r'
    || c == '\U{000B}' || c == '\U{000C}'
    || ('\U{001C}' <= c <= '\U{001F}')
    || c == '\U{0085}' || c == '\U{00A0}' || c == '\U{1680}'
    || ('\U{2000}' <= c <= '\U{200A}')
    || c == '\U{2028}' || c == '\U{2029}' || c == '\U{202F}' || c == '\U{205F}' || c == '\U{3000}'
  }

  /** Number of whitespace characters at the start of `s`. */
  function LeadingSpaces(s: string): (n: nat)
    ensures n <= |s|
    ensures forall k :: 0 <= k < n ==> IsSpace(s[k])
    ensures n < |s| ==> !IsSpace(s[n])
    decreases |s|
  {
    if |s| == 0 || !IsSpace(s[0]) then 0 else 1 + LeadingSpaces(s[1..])
  }

  /** Number of whitespace characters at the end of `s`. */
  function TrailingSpaces(s: string): (n: nat)
    ensures n <= |s|
    ensures forall k :: |s| - n <= k < |s| ==> IsSpace(s[k])
    ensures n < |s| ==> !IsSpace(s[|s| - n - 1])
    decreases |s|
  {
    if |s| == 0 || !IsSpace(s[|s| - 1]) then 0 else 1 + TrailingSpaces(s[..|s| - 1])
  }

  /** `r` sits at offset `i` of `s` and everything around it is whitespace. */
  predicate StrippedAt(s: string, r: string, i: int) {
    && 0 <= i <= |s| - |r| && s[i..i + |r|] == r
    && (forall k :: 0 <= k < i ==> IsSpace(s[k]))
    && (forall k :: i + |r| <= k < |s| ==> IsSpace(s[k]))
  }

  /** Python `s.strip()` with no argument: the infix of `s` left after removing
      whitespace at both ends. */
  function Strip(s: string): (r: string)
    ensures |r| <= |s|
    ensures |r| > 0 ==> !IsSpace(r[0]) && !IsSpace(r[|r| - 1])
    ensures exists i :: StrippedAt(s, r, i)
  {
    var l := LeadingSpaces(s);
    var t := s[l..];
    var n := TrailingSpaces(t);
    var r := t[..|t| - n];
    assert StrippedAt(s, r, l);
    r
  }

  /* ---------- splitting and joining ---------- */

  /** Python `s.split(sep)[0]`: everything before the first `sep`. */
  function FirstField(s: string, sep: char): (r: string)
    ensures StartsWith(s, r)
    ensures sep !in r
    ensures |r| == |s| || s[|r|] == sep
    decreases |s|
  {
    if |s| == 0 || s[0] == sep then "" else [s[0]] + FirstField(s[1..], sep)
  }

  /** Python `sep.join(xs)`. */
  function Join(xs: seq<string>, sep: string): (r: string)
    ensures |xs| == 0 ==> r == ""
    ensures |xs| == 1 ==> r == xs[0]
    ensures |xs| > 0 ==> StartsWith(r, xs[0])
  {
    if |xs| == 0 then ""
    else if |xs| == 1 then xs[0]
    else xs[0] + sep + Join(xs[1..], sep)
  }

  /* ---------- case folding ---------- */

  /** Applies a per-character case mapping to a whole string, as Python's
      `str.lower()` and JavaScript's `toLowerCase()` do. */
  function MapChars(s: string, f: char -> char): (r: string)
    ensures |r| == |s|
    ensures forall i :: 0 <= i < |s| ==> r[i] == f(s[i])
  {
    seq(|s|, i requires 0 <= i < |s| => f(s[i]))
  }

  /** The ASCII-only lower-casing of SQLite's `lower()`. */
  function AsciiLowerChar(c: char): (r: char)
    ensures 'A' <= c <= 'Z' ==> 'a' <= r <= 'z'
    ensures !('A' <= c <= 'Z') ==> r == c
  {
    if 'A' <= c <= 'Z' then (c as int - 'A' as int + 'a' as int) as char else c
  }

  function AsciiLower(s: string): string {
    MapChars(s, AsciiLowerChar)
  }

  /* ---------- integer division ---------- */

  /** Python's floor division `a // b` (Dafny's `/` is Euclidean, which agrees
      only for a positive divisor). */
  function FloorDiv(a: int, b: int): (q: int)
    requires b != 0
    ensures b > 0 ==> b * q <= a < b * q + b
    ensures b < 0 ==> b * q >= a > b * q + b
  {
    if b > 0 then a / b else (-a) / (-b)
  }

  /* ---------- row ids ---------- */

  /** The id SQLite gives a new row of a table without AUTOINCREMENT: one more
      than the largest id in use, or 1 for an empty table. */
  function FreshId(ids: seq<int>): (n: int)
    ensures forall i :: 0 <= i < |ids| ==> ids[i] < n
    ensures n >= 1
  {
    if |ids| == 0 then 1
    else var rest := FreshId(ids[1..]);
         if ids[0] < rest then rest else ids[0] + 1
  }
}

=== FILE: config.dfy ===
/** The settings the core reads: rate-limit thresholds, token lifetimes and
    password length bounds. */
module Config {
  /** Requests per minute for routes outside the login and task buckets. */
  const RATE_LIMIT_PER_MINUTE: int := 200
  /** Requests per minute to the token-issuing route. */
  const LOGIN_RATE_LIMIT_PER_MINUTE: int := 20
  /** Requests per minute to task routes. */
  const TASK_RATE_LIMIT_PER_MINUTE: int := 100
  /** Length of the rate limiter's sliding window, in seconds. */
  const WINDOW_SECONDS: int := 60

  const ACCESS_TOKEN_EXPIRE_MINUTES: int := 30
  const REFRESH_TOKEN_EXPIRE_DAYS: int := 7
  const SECONDS_PER_DAY: int := 86400

  const MIN_PASSWORD_LENGTH: int := 8
  const MAX_PASSWORD_LENGTH: int := 128

  /** Lifetime of an access token in seconds; also the `expires_in` value of
      every token response. */
  const ACCESS_TOKEN_SECONDS: int := ACCESS_TOKEN_EXPIRE_MINUTES * 60
  /** Lifetime of a refresh token in seconds. */
  const REFRESH_TOKEN_SECONDS: int := REFRESH_TOKEN_EXPIRE_DAYS * SECONDS_PER_DAY
}

=== FILE: dashboard.dfy ===
/** The task filter of the dashboard (frontend/src/pages/Dashboard.js): which
    tasks are shown for the search text, the priority filter and the
    "today" switch, and how the shown tasks split into pending and completed.

    JavaScript's `toLowerCase` is a per-character parameter, and the date
    comparison behind "today" is a predicate parameter (it reads the clock). */
module Dashboard {
  import opened Common
  import TaskContext

  type ClientTask = TaskContext.ClientTask

  /** The controls above the list. `priority` is `null` or the chosen value. */
  datatype View = View(search: string, priority: Option<int>, showToday: bool)

  /** The dashboard's environment: case mapping and "is this date today". */
  datatype Env = Env(lower: char -> char, isToday: string -> bool)

  /** A non-empty text is truthy in JavaScript; `null` and "" are not. */
  predicate Truthy(s: Option<string>) {
    s.Some? && s.value != ""
  }

  function Lower(s: string, env: Env): string {
    MapChars(s, env.lower)
  }

  predicate MatchesText(t: ClientTask, v: View, env: Env) {
    || Contains(Lower(t.titulo, env), Lower(v.search, env))
    || (Truthy(t.descripcion) && Contains(Lower(t.descripcion.value, env), Lower(v.search, env)))
  }

  /** A priority of 0 is falsy, like `null`: neither restricts. */
  predicate MatchesPriority(t: ClientTask, v: View) {
    v.priority.Some? && v.priority.value != 0 ==> t.prioridad == v.priority.value
  }

  /** A task without a date passes even when "today" is on. */
  predicate MatchesToday(t: ClientTask, v: View, env: Env) {
    v.showToday && Truthy(t.fecha) ==> env.isToday(t.fecha.value)
  }

  predicate Keep(t: ClientTask, v: View, env: Env) {
    MatchesText(t, v, env) && MatchesPriority(t, v) && MatchesToday(t, v, env)
  }

  /** `filteredTasks`. */
  function Filtered(ts: seq<ClientTask>, v: View, env: Env): (r: seq<ClientTask>)
    ensures forall x :: x in r <==> x in ts && Keep(x, v, env)
    ensures |r| <= |ts|
  {
    if |ts| == 0 then []
    else if Keep(ts[0], v, env) then [ts[0]] + Filtered(ts[1..], v, env)
    else Filtered(ts[1..], v, env)
  }

  /** The tasks with the given completion state, in order. */
  function WithState(ts: seq<ClientTask>, done: bool): (r: seq<ClientTask>)
    ensures forall x :: x in r <==> x in ts && x.completado == done
    ensures |r| <= |ts|
  {
    if |ts| == 0 then []
    else if ts[0].completado == done then [ts[0]] + WithState(ts[1..], done)
    else WithState(ts[1..], done)
  }

  /** The pending section. */
  function Pending(ts: seq<ClientTask>, v: View, env: Env): seq<ClientTask> {
    WithState(Filtered(ts, v, env), false)
  }

  /** The completed section. */
  function Completed(ts: seq<ClientTask>, v: View, env: Env): seq<ClientTask> {
    WithState(Filtered(ts, v, env), true)
  }

  /** The chip next to "Tareas Completadas": over all tasks, not the shown
      ones. */
  function CompletedCount(ts: seq<ClientTask>): nat {
    |WithState(ts, true)|
  }

  const NO_FILTER: View := View("", None, false)

  /** With an empty search, no priority and "today" off, every task shows. */
  lemma {:induction false} NoFilterShowsAll(ts: seq<ClientTask>, env: Env)
    ensures Filtered(ts, NO_FILTER, env) == ts
  {
    if |ts| > 0 {
      EmptyContained(Lower(ts[0].titulo, env));
      NoFilterShowsAll(ts[1..], env);
      assert [ts[0]] + ts[1..] == ts;
    }
  }

  /** A set priority keeps only tasks of exactly that priority; no priority
      keeps the same tasks as the other two conditions alone. */
  lemma PriorityFilter(ts: seq<ClientTask>, v: View, env: Env)
    ensures v.priority.Some? && v.priority.value != 0 ==>
              forall x :: x in Filtered(ts, v, env) ==> x.prioridad == v.priority.value
    ensures forall x :: x in Filtered(ts, v.(priority := None), env) <==>
              x in ts && MatchesText(x, v, env) && MatchesToday(x, v, env)
  {
  }

  /** Pending and completed split the shown tasks: together they have as many
      entries, and each shown task is in exactly one of them. */
  lemma {:induction false} SectionsPartition(fs: seq<ClientTask>)
    ensures |WithState(fs, false)| + |WithState(fs, true)| == |fs|
    ensures forall x :: x in fs <==> x in WithState(fs, false) || x in WithState(fs, true)
    ensures forall x :: !(x in WithState(fs, false) && x in WithState(fs, true))
  {
    if |fs| > 0 {
      SectionsPartition(fs[1..]);
    }
  }

  /** Filtering only removes tasks, so the chip never counts fewer completed
      tasks than the completed section shows. */
  lemma {:induction false} ChipCountsAll(ts: seq<ClientTask>, v: View, env: Env)
    ensures |Completed(ts, v, env)| <= CompletedCount(ts)
    ensures v == NO_FILTER ==> |Completed(ts, v, env)| == CompletedCount(ts)
  {
    FilterThenState(ts, v, env);
    if v == NO_FILTER {
      NoFilterShowsAll(ts, env);
    }
  }

  /** Helper for the chip: the completed tasks among the shown ones are at
      most the completed tasks overall. */
  lemma {:induction false} FilterThenState(ts: seq<ClientTask>, v: View, env: Env)
    ensures |WithState(Filtered(ts, v, env), true)| <= |WithState(ts, true)|
  {
    if |ts| > 0 {
      FilterThenState(ts[1..], v, env);
    }
  }
}

=== FILE: handlers.dfy ===
/** The decision logic of the endpoints in backend/app/main.py: login
    (`/token`), `/refresh`, `/logout`, `/logout/all`, and the task endpoints
    with the paging arithmetic of the listing.

    Each handler takes the database as a value and returns the database
    after the call together with the answer. A handler that sits behind the
    authentication middleware receives the already authenticated user. */
module Handlers {
  import opened Common
  import Config
  import Users
  import Tokens
  import Sessions
  import Tasks
  import Auth

  /** The three tables the handlers read and write. */
  datatype Db = Db(users: Users.UserTable, sessions: Sessions.Store, tasks: Tasks.TaskTable)

  /** The database after a call, and the response or the error. */
  datatype Reply<T> = Reply(db: Db, result: Result<T>)

  /** The body of a `Token` or `RefreshTokenResponse`. */
  datatype TokenResponse = TokenResponse(accessToken: string, refreshToken: string, tokenType: string, expiresIn: int)

  const NO_CONTENT: int := 204

  const LOGIN_REFUSED: HttpError := HttpError(401, "Email o contraseña incorrectos o usuario inactivo")
  const WRONG_PASSWORD: HttpError := HttpError(401, "Email o contraseña incorrectos")
  const REFRESH_REFUSED: HttpError := HttpError(401, "Token de refresco inválido o expirado")
  const OWNER_GONE: HttpError := HttpError(401, "Usuario no encontrado o inactivo")

  /** The `expires_in` both token responses carry (schemas' default and the
      login handler's explicit value agree). */
  const EXPIRES_IN: int := Config.ACCESS_TOKEN_SECONDS

  /** `login_oauth2`. The form's `username` is the email. An unknown or
      inactive user and a failed password check are refused with different
      messages. On success the last-login time is committed, the refresh
      token is stored, and the pair is returned; when storing fails (the
      token string is already stored) the answer is 500 but the last-login
      update, committed earlier, stays. */
  function Login(db: Db, email: string, password: string, hasher: Users.Hasher, codec: Tokens.Codec,
                 keys: Tokens.Keys, now: int, stampMs: int, cause: string): (r: Reply<TokenResponse>)
    ensures var u := Users.ByEmail(db.users, email);
            u.None? || !u.value.isActive ==> r == Reply(db, Err(LOGIN_REFUSED))
    ensures var u := Users.ByEmail(db.users, email);
            u.Some? && u.value.isActive && !hasher.verify(password, u.value.hashedPassword) ==>
              r == Reply(db, Err(WRONG_PASSWORD))
    ensures r.result.Ok? ==>
              var u := Users.ByEmail(db.users, email).value;
              && u.isActive && hasher.verify(password, u.hashedPassword)
              && r.result.value.refreshToken !in db.sessions
              && r.db.sessions == db.sessions[r.result.value.refreshToken :=
                                   Sessions.Record(u.id, now + Config.REFRESH_TOKEN_SECONDS, false)]
              && r.db.users == Users.UpdateLastLogin(db.users, u.id, now)
              && r.db.tasks == db.tasks
              && r.result.value.tokenType == Tokens.BEARER
              && r.result.value.expiresIn == EXPIRES_IN
              && r.result.value.accessToken == Tokens.CreateAccessToken(codec, keys, Tokens.AccessData(u), now)
              && r.result.value.refreshToken == Tokens.CreateRefreshToken(codec, keys, u, now, stampMs)
    ensures var u := Users.ByEmail(db.users, email);
            u.Some? && u.value.isActive && hasher.verify(password, u.value.hashedPassword) ==>
              (r.result.Ok? <==> Tokens.CreateRefreshToken(codec, keys, u.value, now, stampMs) !in db.sessions)
    ensures r.result.Err? && r.result.error.status == 500 ==>
              && r.db.users == Users.UpdateLastLogin(db.users, Users.ByEmail(db.users, email).value.id, now)
              && r.db.sessions == db.sessions
              && r.db.tasks == db.tasks
              && StartsWith(r.result.error.detail, "Error al procesar el login: ")
    ensures r.result.Err? ==> r.result.error.status in {401, 500}
  {
    match Users.ByEmail(db.users, email)
    case None => Reply(db, Err(LOGIN_REFUSED))
    case Some(u) =>
      if !u.isActive then Reply(db, Err(LOGIN_REFUSED))
      else if Users.AuthenticateUser(db.users, email, password, hasher).None? then Reply(db, Err(WRONG_PASSWORD))
      else
        var users := Users.UpdateLastLogin(db.users, u.id, now);
        var access := Tokens.CreateAccessToken(codec, keys, Tokens.AccessData(u), now);
        var refresh := Tokens.CreateRefreshToken(codec, keys, u, now, stampMs);
        match Sessions.Create(db.sessions, refresh, u.id, now, cause)
        case Err(e) =>
          Reply(db.(users := users), Err(ServerError("Error al procesar el login", "500: " + e.detail)))
        case Ok(sessions) =>
          Reply(Db(users, sessions, db.tasks), Ok(TokenResponse(access, refresh, Tokens.BEARER, EXPIRES_IN)))
  }

  /** `refresh_token` (the endpoint): only the stored record is consulted.
      A token that is not usable is refused; when its owner is missing or
      inactive the token is revoked and the request refused; otherwise a new
      pair is returned, and neither is the new refresh token stored nor the
      old one revoked. */
  function Refresh(db: Db, token: string, codec: Tokens.Codec, keys: Tokens.Keys, now: int, stampMs: int)
    : (r: Reply<TokenResponse>)
    ensures Sessions.Get(db.sessions, token, now).None? ==> r == Reply(db, Err(REFRESH_REFUSED))
    ensures r.result.Ok? ==>
              && r.db == db
              && Sessions.Get(db.sessions, token, now).Some?
              && var u := Users.ById(db.users, Sessions.Get(db.sessions, token, now).value.owner);
                 && u.Some? && u.value.isActive
                 && r.result.value.refreshToken == Tokens.CreateRefreshToken(codec, keys, u.value, now, stampMs)
                 && r.result.value.expiresIn == EXPIRES_IN
    ensures Sessions.Get(db.sessions, token, now).Some? ==>
              var u := Users.ById(db.users, Sessions.Get(db.sessions, token, now).value.owner);
              && (u.None? || !u.value.isActive ==>
                    r == Reply(db.(sessions := Sessions.Revoke(db.sessions, token).store), Err(OWNER_GONE)))
              && (u.Some? && u.value.isActive ==>
                    && r.result.Ok?
                    && r.result.value.accessToken
                         == Tokens.CreateTokensForUser(codec, keys, u.value, now, stampMs).accessToken)
    ensures r.result == Err(OWNER_GONE) ==>
              r.db == db.(sessions := Sessions.Revoke(db.sessions, token).store)
    ensures r.result.Err? ==> r.result.error in {REFRESH_REFUSED, OWNER_GONE}
  {
    match Sessions.Get(db.sessions, token, now)
    case None => Reply(db, Err(REFRESH_REFUSED))
    case Some(rec) =>
      match Users.ById(db.users, rec.owner)
      case None => Reply(db.(sessions := Sessions.Revoke(db.sessions, token).store), Err(OWNER_GONE))
      case Some(u) =>
        if !u.isActive then Reply(db.(sessions := Sessions.Revoke(db.sessions, token).store), Err(OWNER_GONE))
        else
          var p := Tokens.CreateTokensForUser(codec, keys, u, now, stampMs);
          Reply(db, Ok(TokenResponse(p.accessToken, p.refreshToken, p.tokenType, EXPIRES_IN)))
  }

  /** `logout`: revokes the token if it is stored and answers 204 either way.
      Afterwards the token never refreshes; every other token, and every
      other table, is as before. */
  function Logout(db: Db, token: string): (r: Reply<int>)
    ensures r.result == Ok(NO_CONTENT)
    ensures forall t :: Sessions.Get(r.db.sessions, token, t).None?
    ensures forall other, t :: other != token ==>
              Sessions.Get(r.db.sessions, other, t) == Sessions.Get(db.sessions, other, t)
    ensures r.db.sessions.Keys == db.sessions.Keys
    ensures token in db.sessions ==> r.db.sessions[token].owner == db.sessions[token].owner
    ensures r.db.users == db.users && r.db.tasks == db.tasks
  {
    Reply(db.(sessions := Sessions.Revoke(db.sessions, token).store), Ok(NO_CONTENT))
  }

  /** `logout_all`: the dependency authenticates the access token, then every
      refresh token of that user is revoked. */
  function LogoutAll(db: Db, accessToken: string, codec: Tokens.Codec, keys: Tokens.Keys, now: int): (r: Reply<int>)
    ensures Auth.CurrentActiveUser(accessToken, codec, keys, db.users, now).Err? ==>
              r == Reply(db, Err(Auth.CurrentActiveUser(accessToken, codec, keys, db.users, now).error))
    ensures Auth.CurrentActiveUser(accessToken, codec, keys, db.users, now).Ok? ==> r.result == Ok(NO_CONTENT)
    ensures r.result.Ok? ==>
              && r.result.value == NO_CONTENT
              && r.db == db.(sessions := Sessions.RevokeAll(db.sessions,
                                          Auth.CurrentActiveUser(accessToken, codec, keys, db.users, now).value.id))
  {
    match Auth.CurrentActiveUser(accessToken, codec, keys, db.users, now)
    case Err(e) => Reply(db, Err(e))
    case Ok(u) => Reply(db.(sessions := Sessions.RevokeAll(db.sessions, u.id)), Ok(NO_CONTENT))
  }

  /* ---------- tasks ---------- */

  /** `crear_tarea`: the new task carries the sent fields, belongs to the
      caller, and has an id no stored task has. */
  function CrearTarea(db: Db, user: Users.User, f: Tasks.Fields): (r: Reply<Tasks.Task>)
    ensures r.result.Ok? && r.result.value.owner == user.id
    ensures r.db == db.(tasks := db.tasks + [r.result.value])
    ensures r.result.value == Tasks.Task(r.result.value.id, f.titulo, f.descripcion, f.completado, f.prioridad, user.id)
    ensures forall i :: 0 <= i < |db.tasks| ==> db.tasks[i].id != r.result.value.id
    ensures Tasks.UniqueIds(db.tasks) ==> Tasks.UniqueIds(r.db.tasks)
  {
    var ins := Tasks.CreateTarea(db.tasks, f, user.id);
    Reply(db.(tasks := ins.tasks), Ok(ins.task))
  }

  /** `get_tarea` (the endpoint): the caller's task, or 404 for a task that is
      missing or someone else's alike. */
  function ObtenerTarea(db: Db, user: Users.User, id: int): (r: Result<Tasks.Task>)
    ensures r.Ok? <==> exists i :: 0 <= i < |db.tasks| && Tasks.Owned(db.tasks[i], id, user.id)
    ensures r.Ok? ==> r.value in db.tasks && Tasks.Owned(r.value, id, user.id)
    ensures r.Err? ==> r.error == Auth.TASK_NOT_FOUND
  {
    match Tasks.GetTarea(db.tasks, id, user.id)
    case None => Err(Auth.TASK_NOT_FOUND)
    case Some(t) => Ok(t)
  }

  /** `update_tarea` (the endpoint): 404 unless the caller owns the task;
      otherwise only the supplied fields of that task change. */
  function ActualizarTarea(db: Db, user: Users.User, id: int, p: Tasks.Patch): (r: Reply<Tasks.Task>)
    ensures ObtenerTarea(db, user, id).Err? ==> r == Reply(db, Err(Auth.TASK_NOT_FOUND))
    ensures ObtenerTarea(db, user, id).Ok? ==> r.result.Ok?
    ensures r.result.Ok? ==>
              && r.result.value == Tasks.ApplyPatch(ObtenerTarea(db, user, id).value, p)
              && r.db == db.(tasks := Tasks.UpdateTarea(db.tasks, id, p))
  {
    match ObtenerTarea(db, user, id)
    case Err(e) => Reply(db, Err(e))
    case Ok(t) => Reply(db.(tasks := Tasks.UpdateTarea(db.tasks, id, p)), Ok(Tasks.ApplyPatch(t, p)))
  }

  /** `delete_tarea` (the endpoint): 404 unless the caller owns the task;
      otherwise the task is removed and the answer is 204. */
  function EliminarTarea(db: Db, user: Users.User, id: int): (r: Reply<int>)
    ensures ObtenerTarea(db, user, id).Err? ==> r == Reply(db, Err(Auth.TASK_NOT_FOUND))
    ensures ObtenerTarea(db, user, id).Ok? ==>
              r == Reply(db.(tasks := Tasks.DeleteTarea(db.tasks, id)), Ok(NO_CONTENT))
  {
    match ObtenerTarea(db, user, id)
    case Err(e) => Reply(db, Err(e))
    case Ok(_) => Reply(db.(tasks := Tasks.DeleteTarea(db.tasks, id)), Ok(NO_CONTENT))
  }

  /* ---------- listing and paging ---------- */

  datatype ListResponse = ListResponse(items: Tasks.TaskTable, total: int, page: int, size: int, pages: int)

  /** `(total + limit - 1) // limit`. */
  function PageCount(total: int, limit: int): int
    requires limit != 0
  {
    FloorDiv(total + limit - 1, limit)
  }

  /** `(skip // limit) + 1`. */
  function PageNumber(skip: int, limit: int): int
    requires limit != 0
  {
    FloorDiv(skip, limit) + 1
  }

  /** Python's message for a division by zero. */
  const DIVISION_BY_ZERO: string := "integer division or modulo by zero"

  /** `listar_tareas`: the store's listing with the paging figures. The 422 of
      an unknown sort column passes through; a zero `limit` fails the page
      arithmetic and becomes a 500. */
  function ListarTareas(db: Db, user: Users.User, skip: int, limit: int, f: Tasks.Filters,
                        ordenarPor: string, orden: string, sort: Tasks.Sorter): (r: Result<ListResponse>)
    ensures ordenarPor !in Tasks.SORT_FIELDS ==> r == Err(Tasks.BadSortField(ordenarPor))
    ensures ordenarPor in Tasks.SORT_FIELDS && limit == 0 ==>
              r == Err(ServerError("Error al listar tareas", DIVISION_BY_ZERO))
    ensures ordenarPor in Tasks.SORT_FIELDS && limit != 0 ==>
              && r.Ok?
              && r.value.items == Tasks.GetTareas(db.tasks, user.id, skip, limit, f, ordenarPor, orden, sort).value.items
    ensures r.Ok? ==>
              && limit != 0
              && r.value.total == |Tasks.Select(db.tasks, user.id, f)|
              && r.value.size == limit
              && r.value.pages == PageCount(r.value.total, limit)
              && r.value.page == PageNumber(skip, limit)
  {
    match Tasks.GetTareas(db.tasks, user.id, skip, limit, f, ordenarPor, orden, sort)
    case Err(e) => Err(e)
    case Ok(l) =>
      if limit == 0 then Err(ServerError("Error al listar tareas", DIVISION_BY_ZERO))
      else Ok(ListResponse(l.items, l.total, PageNumber(skip, limit), limit, PageCount(l.total, limit)))
  }

  /** For a positive page size the page count is the ceiling of
      `total / limit`, and `skip` falls inside the reported page. */
  lemma PagingIsCeiling(total: nat, skip: nat, limit: int)
    requires limit > 0
    ensures var pages := PageCount(total, limit);
            && (total == 0 ==> pages == 0)
            && (total > 0 ==> (pages - 1) * limit < total <= pages * limit)
    ensures var page := PageNumber(skip, limit);
            (page - 1) * limit <= skip < page * limit
  {
    var pages := PageCount(total, limit);
    assert limit * pages <= total + limit - 1 < limit * pages + limit;
    if total == 0 {
      ProductBelow(limit, pages, 1);
      ProductBelow(limit, -1, pages);
    }
  }

  /** Multiplying by a positive factor preserves strict order. */
  lemma ProductBelow(k: int, a: int, b: int)
    requires k > 0 && k * a < k * b
    ensures a < b
  {
  }

  /** Five tasks a page, starting at the sixth of fifteen: page 2 of 3. */
  lemma PagingExample()
    ensures PageNumber(5, 5) == 2 && PageCount(15, 5) == 3
  {
  }

  /* ---------- properties across handlers ---------- */

  /** A successful login stores exactly one refresh token, for the user
      logged in, and that token refreshes until it expires. */
  lemma LoginThenRefresh(db: Db, email: string, password: string, hasher: Users.Hasher, codec: Tokens.Codec,
                         keys: Tokens.Keys, now: int, stampMs: int, cause: string, later: int, stampMs2: int)
    requires Users.Unique(db.users)
    requires Login(db, email, password, hasher, codec, keys, now, stampMs, cause).result.Ok?
    requires now <= later < now + Config.REFRESH_TOKEN_SECONDS
    ensures var l := Login(db, email, password, hasher, codec, keys, now, stampMs, cause);
            && |l.db.sessions.Keys| == |db.sessions.Keys| + 1
            && Refresh(l.db, l.result.value.refreshToken, codec, keys, later, stampMs2).result.Ok?
  {
    var l := Login(db, email, password, hasher, codec, keys, now, stampMs, cause);
    var u := Users.ByEmail(db.users, email).value;
    var token := l.result.value.refreshToken;
    assert l.db.sessions.Keys == db.sessions.Keys + {token};
    var users := l.db.users;
    var i :| 0 <= i < |db.users| && db.users[i] == u;
    assert users[i] == u.(lastLogin := Some(now));
    var found := Users.ById(users, u.id);
    assert found.Some?;
    var j :| 0 <= j < |users| && users[j] == found.value;
    assert db.users[j].id == u.id;
    assert i == j;
  }

  /** After logging out everywhere, no refresh token of that user refreshes
      any more; another user's token refreshes exactly as before. */
  lemma LogoutAllEndsRefresh(db: Db, accessToken: string, codec: Tokens.Codec, keys: Tokens.Keys, now: int,
                             token: string, later: int, stampMs: int)
    requires LogoutAll(db, accessToken, codec, keys, now).result.Ok?
    requires token in db.sessions
    ensures var u := Auth.CurrentActiveUser(accessToken, codec, keys, db.users, now).value;
            var after := LogoutAll(db, accessToken, codec, keys, now).db;
            && (db.sessions[token].owner == u.id ==>
                  Refresh(after, token, codec, keys, later, stampMs).result == Err(REFRESH_REFUSED))
            && (db.sessions[token].owner != u.id ==>
                  Refresh(after, token, codec, keys, later, stampMs).result
                    == Refresh(db, token, codec, keys, later, stampMs).result)
  {
  }

  /** Another user's task and a missing task are indistinguishable: reading,
      updating and deleting both answer 404 and change nothing. */
  lemma ForeignTaskLooksMissing(db: Db, user: Users.User, id: int, p: Tasks.Patch)
    requires forall i :: 0 <= i < |db.tasks| && db.tasks[i].id == id ==> db.tasks[i].owner != user.id
    ensures ObtenerTarea(db, user, id) == Err(Auth.TASK_NOT_FOUND)
    ensures ActualizarTarea(db, user, id, p) == Reply(db, Err(Auth.TASK_NOT_FOUND))
    ensures EliminarTarea(db, user, id) == Reply(db, Err(Auth.TASK_NOT_FOUND))
  {
  }

  /** A created task can be read back by its owner; once deleted, reading it
      is 404. */
  lemma CreateReadDelete(db: Db, user: Users.User, f: Tasks.Fields)
    requires Tasks.UniqueIds(db.tasks)
    ensures var c := CrearTarea(db, user, f);
            var t := c.result.value;
            && ObtenerTarea(c.db, user, t.id) == Ok(t)
            && ObtenerTarea(EliminarTarea(c.db, user, t.id).db, user, t.id) == Err(Auth.TASK_NOT_FOUND)
  {
    var c := CrearTarea(db, user, f);
    var t := c.result.value;
    assert c.db.tasks[|db.tasks|] == t;
    var g := Tasks.GetTarea(c.db.tasks, t.id, user.id);
    assert g.Some?;
    var k :| 0 <= k < |c.db.tasks| && c.db.tasks[k] == g.value;
    assert k == |db.tasks|;
  }
}

=== FILE: legacy_tasks.dfy ===
/** The older, unscoped task store of app/crud.py: tasks have no owner and no
    priority, lookups go by id alone, and the listing clamps its paging
    parameters.

    The table is kept in ascending id order, which is what `ORDER BY id`
    sees; every operation preserves that order. */
module LegacyTasks {
  import opened Common

  datatype Tarea = Tarea(id: int, titulo: string, descripcion: Option<string>, completado: bool)

  type Table = seq<Tarea>

  /** The fields a `TareaActualizar` body sets (`exclude_unset`): `None` means
      not supplied; a supplied `descripcion` may be `null`. */
  datatype Update = Update(titulo: Option<string>, descripcion: Option<Option<string>>, completado: Option<bool>)

  /** Ids strictly increase along the table. */
  predicate Ascending(t: Table) {
    forall i, j :: 0 <= i < j < |t| ==> t[i].id < t[j].id
  }

  /** `get_tarea`: the task with that id, whoever created it, or `None`. */
  function Get(t: Table, id: int): (r: Option<Tarea>)
    ensures r.Some? <==> exists i :: 0 <= i < |t| && t[i].id == id
    ensures r.Some? ==> r.value in t && r.value.id == id
  {
    if |t| == 0 then None
    else if t[0].id == id then Some(t[0])
    else Get(t[1..], id)
  }

  /* ---------- listing ---------- */

  /** `max(0, skip)`. */
  function SafeSkip(skip: int): (s: nat)
    ensures skip >= 0 ==> s == skip
    ensures skip < 0 ==> s == 0
  {
    if skip < 0 then 0 else skip
  }

  /** `min(500, max(1, limit))`. */
  function SafeLimit(limit: int): (l: nat)
    ensures 1 <= l <= 500
    ensures 1 <= limit <= 500 ==> l == limit
    ensures limit < 1 ==> l == 1
    ensures limit > 500 ==> l == 500
  {
    if limit < 1 then 1 else if limit > 500 then 500 else limit
  }

  /** The `completado` filter, applied only when the parameter is given. */
  predicate Wanted(x: Tarea, completado: Option<bool>) {
    completado.None? || x.completado == completado.value
  }

  /** The filtered table, in table order. */
  function Filtered(t: Table, completado: Option<bool>): (r: Table)
    ensures forall x :: x in r <==> x in t && Wanted(x, completado)
    ensures |r| <= |t|
    ensures Ascending(t) ==> Ascending(r)
  {
    if |t| == 0 then []
    else
      var rest := Filtered(t[1..], completado);
      assert forall x :: x in rest ==> x in t[1..];
      assert Ascending(t) ==> Ascending([t[0]] + rest) by {
        if Ascending(t) { PrependKeepsOrder(t, rest); }
      }
      if Wanted(t[0], completado) then [t[0]] + rest else rest
  }

  /** The head of an ordered table comes before any ordered selection of its
      tail. */
  lemma PrependKeepsOrder(t: Table, rest: Table)
    requires Ascending(t) && |t| > 0 && Ascending(rest)
    requires forall x :: x in rest ==> x in t[1..]
    ensures Ascending([t[0]] + rest)
  {
    forall k | 0 <= k < |rest|
      ensures t[0].id < rest[k].id
    {
      assert rest[k] in t[1..];
      var m :| 0 <= m < |t| - 1 && t[1..][m] == rest[k];
      assert t[m + 1] == rest[k];
    }
  }

  /** `get_tareas`: the tasks passing the filter, in id order, from position
      `max(0, skip)` and at most `min(500, max(1, limit))` of them. */
  function List(t: Table, skip: int, limit: int, completado: Option<bool>): (r: Table)
    requires Ascending(t)
    ensures var f := Filtered(t, completado);
            && |r| == (if SafeSkip(skip) >= |f| then 0 else Min(SafeLimit(limit), |f| - SafeSkip(skip)))
            && forall k :: 0 <= k < |r| ==> r[k] == f[SafeSkip(skip) + k]
    ensures 1 <= |r| ==> |r| <= 500
    ensures forall x :: x in r ==> x in t && Wanted(x, completado)
    ensures Ascending(r)
  {
    var f := Filtered(t, completado);
    var from := Min(SafeSkip(skip), |f|);
    var upto := Min(from + SafeLimit(limit), |f|);
    f[from..upto]
  }

  function Min(a: int, b: int): int {
    if a <= b then a else b
  }

  /* ---------- changes ---------- */

  /** The id the table assigns next: one past the largest. */
  function NextId(t: Table): (n: int)
    requires Ascending(t)
    ensures forall i :: 0 <= i < |t| ==> t[i].id < n
  {
    if |t| == 0 then 1 else t[|t| - 1].id + 1
  }

  datatype Changed = Changed(table: Table, tarea: Tarea)

  /** `create_tarea`: the new task gets the next id and goes at the end. */
  function Create(t: Table, titulo: string, descripcion: Option<string>, completado: bool): (r: Changed)
    requires Ascending(t)
    ensures r.table == t + [r.tarea]
    ensures r.tarea == Tarea(r.tarea.id, titulo, descripcion, completado)
    ensures Get(t, r.tarea.id).None?
    ensures Ascending(r.table)
  {
    var x := Tarea(NextId(t), titulo, descripcion, completado);
    Changed(t + [x], x)
  }

  /** The task with the supplied fields replaced and the others kept. */
  function Apply(x: Tarea, u: Update): (r: Tarea)
    ensures r.id == x.id
    ensures r.titulo == u.titulo.GetOr(x.titulo)
    ensures r.descripcion == u.descripcion.GetOr(x.descripcion)
    ensures r.completado == u.completado.GetOr(x.completado)
  {
    Tarea(x.id, u.titulo.GetOr(x.titulo), u.descripcion.GetOr(x.descripcion), u.completado.GetOr(x.completado))
  }

  /** `update_tarea`: `None` when there is no task with that id; otherwise the
      task changed in place and returned. */
  function Change(t: Table, id: int, u: Update): (r: Option<Changed>)
    ensures r.None? <==> Get(t, id).None?
    ensures r.Some? ==> r.value.tarea == Apply(Get(t, id).value, u)
    ensures r.Some? ==> |r.value.table| == |t|
    ensures r.Some? ==> forall i :: 0 <= i < |t| && t[i].id != id ==> r.value.table[i] == t[i]
    ensures r.Some? ==> forall i :: 0 <= i < |t| && t[i].id == id ==> r.value.table[i] == Apply(t[i], u)
  {
    match Get(t, id)
    case None => None
    case Some(x) =>
      Some(Changed(seq(|t|, i requires 0 <= i < |t| => if t[i].id == id then Apply(t[i], u) else t[i]),
                   Apply(x, u)))
  }

  /** The table without the tasks of that id. */
  function Without(t: Table, id: int): (r: Table)
    ensures forall x :: x in r <==> x in t && x.id != id
    ensures Ascending(t) ==> Ascending(r)
  {
    if |t| == 0 then []
    else
      var rest := Without(t[1..], id);
      assert forall x :: x in rest ==> x in t[1..];
      assert Ascending(t) ==> Ascending([t[0]] + rest) by {
        if Ascending(t) { PrependKeepsOrder(t, rest); }
      }
      if t[0].id == id then rest else [t[0]] + rest
  }

  /** `delete_tarea`: `None` when there is no task with that id; otherwise the
      task is removed and returned. */
  function Delete(t: Table, id: int): (r: Option<Changed>)
    ensures r.None? <==> Get(t, id).None?
    ensures r.Some? ==> r.value.tarea == Get(t, id).value && r.value.tarea !in r.value.table
    ensures r.Some? ==> forall x :: x in r.value.table <==> x in t && x.id != id
  {
    match Get(t, id)
    case None => None
    case Some(x) => Some(Changed(Without(t, id), x))
  }

  /* ---------- properties ---------- */

  /** Updating keeps the id order, and the task then reads back changed. */
  lemma {:induction false} ChangeKeepsOrder(t: Table, id: int, u: Update)
    requires Ascending(t)
    requires Get(t, id).Some?
    ensures Ascending(Change(t, id, u).value.table)
    ensures Get(Change(t, id, u).value.table, id) == Some(Apply(Get(t, id).value, u))
  {
    var c := Change(t, id, u).value;
    var k :| 0 <= k < |t| && t[k] == Get(t, id).value;
    assert c.table[k] == Apply(t[k], u);
    var g := Get(c.table, id);
    var j :| 0 <= j < |c.table| && c.table[j] == g.value;
    assert c.table[j].id == id;
    assert t[j].id == id;
    assert j == k;
  }

  /** A deleted task is gone for good, and the order is kept. */
  lemma DeleteThenGet(t: Table, id: int)
    requires Ascending(t)
    requires Get(t, id).Some?
    ensures Get(Delete(t, id).value.table, id).None?
    ensures Ascending(Delete(t, id).value.table)
  {
  }

  /** Deleting a task that is not there changes nothing and says so. */
  lemma DeleteMissing(t: Table, id: int)
    requires forall i :: 0 <= i < |t| ==> t[i].id != id
    ensures Delete(t, id).None?
    ensures Change(t, id, Update(None, None, None)).None?
  {
  }

  /** The same filter over the same table: a larger `skip` never shows an
      earlier task than a smaller one. */
  lemma {:induction false} PagesFollowIds(t: Table, completado: Option<bool>, skip: nat, limit: int)
    requires Ascending(t)
    requires |List(t, skip, limit, completado)| > 0 && |List(t, skip + SafeLimit(limit), limit, completado)| > 0
    ensures var here := List(t, skip, limit, completado);
            var next := List(t, skip + SafeLimit(limit), limit, completado);
            here[|here| - 1].id < next[0].id
  {
    var f := Filtered(t, completado);
    var here := List(t, skip, limit, completado);
    var next := List(t, skip + SafeLimit(limit), limit, completado);
    assert here[|here| - 1] == f[skip + |here| - 1];
    assert next[0] == f[skip + SafeLimit(limit)];
  }
}

=== FILE: passwords.dfy ===
/** The password rules of backend/app/password_validator.py: the extra rules
    (`validate_custom_rules`), the combined verdict with its error message
    (`validate_password_strength`) and the strength analysis
    (`check_password_strength`).

    Python's Unicode character classes (`isupper`, `islower`, `isdigit`) and
    per-character `lower()` are parameters, and so is the third-party
    `PasswordValidator` schema, of which only what its configuration
    guarantees is assumed. */
module Passwords {
  import opened Common
  import Config

  /** Python's `str.isupper`, `str.islower`, `str.isdigit` on one character and
      `str.lower` on one character. */
  datatype CharClasses = CharClasses(isUpper: char -> bool, isLower: char -> bool, isDigit: char -> bool,
                                     lower: char -> char)

  /** The characters that count as special. */
  const SYMBOLS: string := "!@#$%^&*()_+-=[]{}|;:,.<>?"

  /** The three-character runs the source forbids, in its order, duplicates
      included. */
  const SEQUENCES: seq<string> := [
    "123", "234", "345", "456", "567", "678", "789", "890",
    "abc", "bcd", "cde", "def", "efg", "fgh", "ghi", "hij",
    "ijk", "jkl", "klm", "lmn", "mno", "nop", "opq", "pqr",
    "qrs", "rst", "stu", "tuv", "uvw", "vwx", "wxy", "xyz",
    "qwe", "wer", "ert", "rty", "tyu", "yui", "uio", "iop",
    "asd", "sdf", "dfg", "fgh", "ghj", "hjk", "jkl", "klz",
    "zxc", "xcv", "cvb", "vbn", "bnm", "nmq", "mqw", "qwe"]

  const TOO_COMMON: string := "La contraseña es demasiado común"
  const REPEATED: string := "La contraseña no puede tener caracteres repetidos consecutivos"
  const HAS_SEQUENCE: string := "La contraseña no puede contener secuencias de caracteres"

  const TOO_SHORT: string := "La contraseña debe tener al menos 8 caracteres"
  const TOO_LONG: string := "La contraseña no puede tener más de 128 caracteres"
  const NO_UPPER: string := "La contraseña debe contener al menos una letra mayúscula"
  const NO_LOWER: string := "La contraseña debe contener al menos una letra minúscula"
  const NO_DIGIT: string := "La contraseña debe contener al menos un número"
  const NO_SYMBOL: string := "La contraseña debe contener al menos un carácter especial"
  const HAS_SPACE: string := "La contraseña no puede contener espacios"

  /* ---------- character facts ---------- */

  /** Python `any(f(c) for c in p)`. */
  predicate AnyChar(p: string, f: char -> bool) {
    exists i :: 0 <= i < |p| && f(p[i])
  }

  predicate HasSymbol(p: string) {
    exists i :: 0 <= i < |p| && p[i] in SYMBOLS
  }

  /** Three equal characters start at position `i`. */
  predicate TripleAt(p: string, i: int) {
    0 <= i && i + 2 < |p| && p[i] == p[i + 1] && p[i + 1] == p[i + 2]
  }

  predicate HasTriple(p: string) {
    exists i :: 0 <= i < |p| && TripleAt(p, i)
  }

  /** The lower-cased password contains a forbidden run. */
  predicate HasSequence(lowered: string) {
    exists k :: 0 <= k < |SEQUENCES| && Contains(lowered, SEQUENCES[k])
  }

  function Lowered(p: string, cc: CharClasses): string {
    MapChars(p, cc.lower)
  }

  /* ---------- extra rules ---------- */

  /** The messages of the extra rules, each at most once and in the order
      common password, repeated characters, sequence. */
  function CustomErrors(p: string, cc: CharClasses, common: set<string>): seq<string> {
    (if Lowered(p, cc) in common then [TOO_COMMON] else [])
    + (if HasTriple(p) then [REPEATED] else [])
    + (if HasSequence(Lowered(p, cc)) then [HAS_SEQUENCE] else [])
  }

  /** `validate_custom_rules`: scans for a triple and then for a forbidden
      run, stopping each scan at the first hit. */
  method ValidateCustomRules(p: string, cc: CharClasses, common: set<string>) returns (errors: seq<string>)
    ensures errors == CustomErrors(p, cc, common)
  {
    errors := [];
    var lowered := Lowered(p, cc);
    if lowered in common {
      errors := errors + [TOO_COMMON];
    }
    var i := 0;
    var repeated := false;
    while i < |p| - 2 && !repeated
      invariant 0 <= i
      invariant repeated ==> HasTriple(p)
      invariant !repeated ==> forall k :: 0 <= k < i ==> !TripleAt(p, k)
      decreases |p| - i, if repeated then 0 else 1
    {
      if p[i] == p[i + 1] && p[i + 1] == p[i + 2] {
        assert TripleAt(p, i);
        repeated := true;
      } else {
        i := i + 1;
      }
    }
    if repeated {
      errors := errors + [REPEATED];
    }
    var k := 0;
    var matched := false;
    while k < |SEQUENCES| && !matched
      invariant 0 <= k <= |SEQUENCES|
      invariant matched ==> HasSequence(lowered)
      invariant !matched ==> forall j :: 0 <= j < k ==> !Contains(lowered, SEQUENCES[j])
      decreases |SEQUENCES| - k, if matched then 0 else 1
    {
      if Contains(lowered, SEQUENCES[k]) {
        matched := true;
      } else {
        k := k + 1;
      }
    }
    if matched {
      errors := errors + [HAS_SEQUENCE];
    }
  }

  /** The extra rules never repeat a message and never produce more than
      three. */
  lemma CustomErrorsDistinct(p: string, cc: CharClasses, common: set<string>)
    ensures |CustomErrors(p, cc, common)| <= 3
    ensures forall i, j :: 0 <= i < j < |CustomErrors(p, cc, common)| ==>
              CustomErrors(p, cc, common)[i] != CustomErrors(p, cc, common)[j]
    ensures CustomErrors(p, cc, common) == [] <==>
              Lowered(p, cc) !in common && !HasTriple(p) && !HasSequence(Lowered(p, cc))
  {
  }

  /* ---------- the combined verdict ---------- */

  /** The messages for a password the schema rejects: at most one length
      message, too short taking precedence, then one per missing character
      class, then spaces. */
  function BaseErrors(p: string, cc: CharClasses): seq<string> {
    LengthErrors(p) + ClassErrors(p, cc)
  }

  function LengthErrors(p: string): seq<string> {
    if |p| < Config.MIN_PASSWORD_LENGTH then [TOO_SHORT]
    else if |p| > Config.MAX_PASSWORD_LENGTH then [TOO_LONG] else []
  }

  function ClassErrors(p: string, cc: CharClasses): seq<string> {
    (if !AnyChar(p, cc.isUpper) then [NO_UPPER] else [])
    + (if !AnyChar(p, cc.isLower) then [NO_LOWER] else [])
    + (if !AnyChar(p, cc.isDigit) then [NO_DIGIT] else [])
    + (if !HasSymbol(p) then [NO_SYMBOL] else [])
    + (if ' ' in p then [HAS_SPACE] else [])
  }

  /** What the configured schema (`min(8).max(128)`, `no().spaces()`) is
      assumed to guarantee when it accepts a password. */
  ghost predicate Respects(schema: string -> bool) {
    forall p :: schema(p) ==> Config.MIN_PASSWORD_LENGTH <= |p| <= Config.MAX_PASSWORD_LENGTH && ' ' !in p
  }

  datatype Verdict = Verdict(valid: bool, message: string)

  /** `validate_password_strength`: the schema's verdict first, and the extra
      rules only for a password the schema accepts. */
  function ValidatePasswordStrength(p: string, cc: CharClasses, schema: string -> bool, common: set<string>)
    : (v: Verdict)
    ensures v.valid <==> schema(p) && CustomErrors(p, cc, common) == []
    ensures v.valid ==> v.message == ""
    ensures !schema(p) ==> v.message == Join(BaseErrors(p, cc), "; ")
    ensures schema(p) && !v.valid ==> v.message == Join(CustomErrors(p, cc, common), "; ")
  {
    if !schema(p) then Verdict(false, Join(BaseErrors(p, cc), "; "))
    else
      var custom := CustomErrors(p, cc, common);
      if |custom| > 0 then Verdict(false, Join(custom, "; ")) else Verdict(true, "")
  }

  /** At most one length message appears, and it comes first. */
  lemma LengthMessages(p: string, cc: CharClasses)
    ensures !(TOO_SHORT in BaseErrors(p, cc) && TOO_LONG in BaseErrors(p, cc))
    ensures |p| < Config.MIN_PASSWORD_LENGTH ==> BaseErrors(p, cc)[0] == TOO_SHORT
    ensures |p| > Config.MAX_PASSWORD_LENGTH ==> BaseErrors(p, cc)[0] == TOO_LONG
  {
    assert TOO_SHORT !in ClassErrors(p, cc) && TOO_LONG !in ClassErrors(p, cc);
  }

  /** A password of the wrong length is refused with the length message at
      the head of the text. */
  lemma WrongLengthRefused(p: string, cc: CharClasses, schema: string -> bool, common: set<string>)
    requires Respects(schema)
    ensures var v := ValidatePasswordStrength(p, cc, schema, common);
            && (|p| < Config.MIN_PASSWORD_LENGTH ==> !v.valid && StartsWith(v.message, TOO_SHORT))
            && (|p| > Config.MAX_PASSWORD_LENGTH ==> !v.valid && StartsWith(v.message, TOO_LONG))
  {
    LengthMessages(p, cc);
  }

  /** The extra rules are consulted only once the schema accepts: until then
      the list of common passwords makes no difference. */
  lemma CustomRulesOnlyAfterSchema(p: string, cc: CharClasses, schema: string -> bool, c1: set<string>, c2: set<string>)
    requires !schema(p)
    ensures ValidatePasswordStrength(p, cc, schema, c1) == ValidatePasswordStrength(p, cc, schema, c2)
  {
  }

  /** An accepted password has an allowed length, no space, no triple, no
      forbidden run, and is not common. */
  lemma AcceptedPassword(p: string, cc: CharClasses, schema: string -> bool, common: set<string>)
    requires Respects(schema)
    ensures ValidatePasswordStrength(p, cc, schema, common).valid ==>
              && Config.MIN_PASSWORD_LENGTH <= |p| <= Config.MAX_PASSWORD_LENGTH && ' ' !in p
              && !HasTriple(p) && !HasSequence(Lowered(p, cc)) && Lowered(p, cc) !in common
  {
    CustomErrorsDistinct(p, cc, common);
  }

  /* ---------- strength analysis ---------- */

  const STRENGTHS: seq<string> := ["muy_débil", "débil", "moderada", "fuerte", "muy_fuerte"]

  /** The label for a score: thresholds 2, 4, 6 and 8. */
  function StrengthOf(score: int): (s: string)
    ensures s in STRENGTHS
  {
    if score <= 2 then STRENGTHS[0]
    else if score <= 4 then STRENGTHS[1]
    else if score <= 6 then STRENGTHS[2]
    else if score <= 8 then STRENGTHS[3]
    else STRENGTHS[4]
  }

  /** Position of a label from weakest to strongest. */
  function Rank(s: string): nat {
    if s == STRENGTHS[0] then 0
    else if s == STRENGTHS[1] then 1
    else if s == STRENGTHS[2] then 2
    else if s == STRENGTHS[3] then 3
    else 4
  }

  datatype Analysis = Analysis(
    length: int,
    hasUppercase: bool,
    hasLowercase: bool,
    hasDigit: bool,
    hasSymbol: bool,
    hasSpaces: bool,
    hasRepeatingChars: bool,
    isCommon: bool,
    score: int,
    strength: string)

  function Points(b: bool, n: int): int {
    if b then n else 0
  }

  /** `check_password_strength`: one point each for lengths 8, 12 and 16 and
      for each character class, minus one for spaces, one for a triple and
      two for a common password, floored at zero. */
  function CheckPasswordStrength(p: string, cc: CharClasses, common: set<string>): (a: Analysis)
    ensures a.length == |p|
    ensures a.hasRepeatingChars == HasTriple(p)
    ensures a.hasSpaces <==> ' ' in p
    ensures a.isCommon <==> Lowered(p, cc) in common
    ensures 0 <= a.score <= 7
    ensures a.score <= 7 - Points(a.hasSpaces, 1) - Points(a.hasRepeatingChars, 1) - Points(a.isCommon, 2)
              || a.score == 0
    ensures a.strength == StrengthOf(a.score) && a.strength != "muy_fuerte"
  {
    var up := AnyChar(p, cc.isUpper);
    var low := AnyChar(p, cc.isLower);
    var dig := AnyChar(p, cc.isDigit);
    var sym := HasSymbol(p);
    var spaces := ' ' in p;
    var rep := HasTriple(p);
    var com := Lowered(p, cc) in common;
    var raw := Points(|p| >= 8, 1) + Points(|p| >= 12, 1) + Points(|p| >= 16, 1)
               + Points(up, 1) + Points(low, 1) + Points(dig, 1) + Points(sym, 1)
               - Points(spaces, 1) - Points(rep, 1) - Points(com, 2);
    var score := if raw < 0 then 0 else raw;
    Analysis(|p|, up, low, dig, sym, spaces, rep, com, score, StrengthOf(score))
  }

  /** A higher score never gives a weaker label. */
  lemma StrengthMonotone(s1: int, s2: int)
    requires s1 <= s2
    ensures Rank(StrengthOf(s1)) <= Rank(StrengthOf(s2))
  {
  }

  /** "Password111!" has a run of three equal characters, which costs it a
      point: it scores at most 5. */
  lemma RepeatedDigitsExample(cc: CharClasses, common: set<string>)
    ensures CheckPasswordStrength("Password111!", cc, common).hasRepeatingChars
    ensures CheckPasswordStrength("Password111!", cc, common).score <= 5
  {
    assert TripleAt("Password111!", 8);
  }

  /** The analysis and the verdict agree on the triple rule: a password with
      a triple is never accepted. */
  lemma AnalysisAgreesWithRules(p: string, cc: CharClasses, schema: string -> bool, common: set<string>)
    requires CheckPasswordStrength(p, cc, common).hasRepeatingChars
    ensures !ValidatePasswordStrength(p, cc, schema, common).valid
  {
  }
}

=== FILE: pipeline.dfy ===
/** The two middlewares of backend/app/main.py in the order a request meets
    them: `RateLimitMiddleware` is registered last and so runs first, then
    `AuthMiddleware`, then the endpoint.

    The limiter reads the clock as fractional seconds; token expiry is
    checked in whole seconds, the same reading rounded down. */
module Pipeline {
  import opened Common
  import RateLimit
  import Auth
  import Users
  import Tokens

  datatype Request = Request(
    verb: string,
    path: string,
    authorization: Option<string>,
    forwardedFor: Option<string>,
    clientHost: Option<string>)

  function ForLimiter(req: Request): RateLimit.Request {
    RateLimit.Request(req.path, req.forwardedFor, req.clientHost)
  }

  function ForAuth(req: Request): Auth.Request {
    Auth.Request(req.verb, req.path, req.authorization)
  }

  /** What becomes of a request: a 429 from the limiter, an error from the
      authentication middleware, or the endpoint, with the user when one was
      authenticated. */
  datatype Response = TooMany(error: HttpError) | Denied(error: HttpError) | ToEndpoint(user: Option<Users.User>)

  datatype Served = Served(limiter: RateLimit.State, response: Response)

  /** One request through both middlewares. */
  function Serve(st: RateLimit.State, req: Request, now: real, limits: RateLimit.Limits, codec: Tokens.Codec,
                 keys: Tokens.Keys, users: Users.UserTable, dbError: Option<string>): (s: Served)
    ensures s.limiter == RateLimit.Step(st, ForLimiter(req), now, limits).state
    ensures RateLimit.Step(st, ForLimiter(req), now, limits).verdict.Reject? <==> s.response.TooMany?
    ensures s.response.TooMany? ==> s.response.error == RateLimit.TOO_MANY_REQUESTS
    ensures s.response.Denied? ==>
              Auth.Middleware(ForAuth(req), codec, keys, users, now.Floor, dbError) == Auth.Deny(s.response.error)
    ensures s.response.ToEndpoint? && s.response.user.Some? ==>
              Auth.Middleware(ForAuth(req), codec, keys, users, now.Floor, dbError) == Auth.Admit(s.response.user.value)
  {
    var limited := RateLimit.Step(st, ForLimiter(req), now, limits);
    if limited.verdict.Reject? then Served(limited.state, TooMany(limited.verdict.error))
    else
      match Auth.Middleware(ForAuth(req), codec, keys, users, now.Floor, dbError)
      case Pass => Served(limited.state, ToEndpoint(None))
      case Admit(u) => Served(limited.state, ToEndpoint(Some(u)))
      case Deny(e) => Served(limited.state, Denied(e))
  }

  /** A client over its limit is turned away before its credentials are
      looked at: the answer is the same whatever it presents. */
  lemma LimitBeforeCredentials(st: RateLimit.State, req: Request, now: real, limits: RateLimit.Limits,
                               codec: Tokens.Codec, keys: Tokens.Keys, users: Users.UserTable,
                               dbError: Option<string>, other: Option<string>)
    requires RateLimit.Step(st, ForLimiter(req), now, limits).verdict.Reject?
    ensures Serve(st, req, now, limits, codec, keys, users, dbError)
            == Serve(st, req.(authorization := other), now, limits, codec, keys, users, None)
  {
  }

  /** A request the authentication middleware refuses still takes its place
      in the window. */
  lemma DeniedRequestsCount(st: RateLimit.State, req: Request, now: real, limits: RateLimit.Limits,
                            codec: Tokens.Codec, keys: Tokens.Keys, users: Users.UserTable,
                            dbError: Option<string>)
    requires RateLimit.RouteOf(req.path).Limited?
    ensures var s := Serve(st, req, now, limits, codec, keys, users, dbError);
            var b := RateLimit.RouteOf(req.path).bucket;
            var key := RateLimit.ClientKey(ForLimiter(req));
            RateLimit.History(s.limiter.Get(b), key)
              == RateLimit.Recent(RateLimit.History(st.Get(b), key), now - RateLimit.WINDOW) + [now]
  {
  }

  /** The paths the limiter exempts are all public: such a request reaches
      its endpoint and leaves every counter as it was. */
  lemma ExemptPathsPassThrough(st: RateLimit.State, req: Request, now: real, limits: RateLimit.Limits,
                               codec: Tokens.Codec, keys: Tokens.Keys, users: Users.UserTable,
                               dbError: Option<string>)
    requires req.path in RateLimit.EXEMPT_PATHS
    ensures Serve(st, req, now, limits, codec, keys, users, dbError) == Served(st, ToEndpoint(None))
  {
    assert req.path in Auth.PUBLIC_PATHS;
  }

  /** `/token` is public to the authentication middleware but counted in the
      login bucket: it is never refused for credentials, only for volume. */
  lemma LoginOnlyLimited(st: RateLimit.State, req: Request, now: real, limits: RateLimit.Limits,
                         codec: Tokens.Codec, keys: Tokens.Keys, users: Users.UserTable,
                         dbError: Option<string>)
    requires req.path == "/token"
    ensures var s := Serve(st, req, now, limits, codec, keys, users, dbError);
            var key := RateLimit.ClientKey(ForLimiter(req));
            && !s.response.Denied?
            && (s.response.TooMany? <==>
                  |RateLimit.Recent(RateLimit.History(st.login, key), now - RateLimit.WINDOW)| + 1 > limits.login)
  {
    var key := RateLimit.ClientKey(ForLimiter(req));
    assert RateLimit.RouteOf(req.path) == RateLimit.Limited(RateLimit.LoginBucket);
    assert ForAuth(req).path in Auth.PUBLIC_PATHS;
    assert Auth.Middleware(ForAuth(req), codec, keys, users, now.Floor, dbError).Pass?;
    var o := RateLimit.Step(st, ForLimiter(req), now, limits);
    var h := RateLimit.History(o.state.login, key);
    assert h == RateLimit.Recent(RateLimit.History(st.login, key), now - RateLimit.WINDOW) + [now];
    assert o.verdict.Reject? <==> |h| > limits.login;
  }
}

=== FILE: rate_limit.dfy ===
/** The sliding-window rate limiter that runs in front of every request
    (backend/app/main.py, `RateLimitMiddleware.dispatch`).

    The middleware keeps three maps from client key to the timestamps of that
    client's recent requests, one per bucket (login, task, general). Each
    request outside a short list of exempt paths prunes every timestamp older
    than the window from all three maps, appends the current time to its own
    bucket, and is refused with 429 when that bucket's count then exceeds the
    bucket's limit. Requests are modelled as a sequential trace: each call of
    `Step` is one request, run to completion before the next. */
module RateLimit {
  import opened Common
  import Config

  /** Seconds since the epoch, as `time.time()` returns them. */
  type Time = real

  /** Recent request timestamps, per client key. */
  type Window = map<string, seq<Time>>

  datatype Bucket = LoginBucket | TaskBucket | GeneralBucket

  /** What the limiter does with a path: let it through untouched, or count it
      in one bucket. */
  datatype Route = Exempt | Limited(bucket: Bucket)

  /** Per-minute thresholds; tests lower them at run time, so they are a
      parameter rather than constants. */
  datatype Limits = Limits(general: int, login: int, task: int) {
    function Of(b: Bucket): int {
      match b
      case LoginBucket => login
      case TaskBucket => task
      case GeneralBucket => general
    }
  }

  const DEFAULT_LIMITS: Limits :=
    Limits(Config.RATE_LIMIT_PER_MINUTE, Config.LOGIN_RATE_LIMIT_PER_MINUTE, Config.TASK_RATE_LIMIT_PER_MINUTE)

  /** The three maps the middleware instance owns. */
  datatype State = State(general: Window, login: Window, task: Window) {
    function Get(b: Bucket): Window {
      match b
      case LoginBucket => login
      case TaskBucket => task
      case GeneralBucket => general
    }

    function With(b: Bucket, w: Window): (r: State)
      ensures r.Get(b) == w
      ensures forall b' :: b' != b ==> r.Get(b') == Get(b')
    {
      match b
      case LoginBucket => this.(login := w)
      case TaskBucket => this.(task := w)
      case GeneralBucket => this.(general := w)
    }
  }

  const INITIAL: State := State(map[], map[], map[])

  /** The parts of a request the limiter reads: the URL path, the
      `X-Forwarded-For` header and the peer address of the connection. */
  datatype Request = Request(path: string, forwardedFor: Option<string>, clientHost: Option<string>)

  datatype Verdict = Forward | Reject(error: HttpError)

  datatype Outcome = Outcome(state: State, verdict: Verdict)

  const EXEMPT_PATHS: seq<string> := ["/docs", "/openapi.json", "/redoc", "/health", "/invalid-json"]

  const TOO_MANY_REQUESTS: HttpError := HttpError(429, "Demasiadas solicitudes")

  const WINDOW: Time := Config.WINDOW_SECONDS as real

  /** Exempt paths match exactly; `/token` is the login bucket, any path
      beginning with `/tareas` is the task bucket, everything else is general. */
  function RouteOf(path: string): Route {
    if path in EXEMPT_PATHS then Exempt
    else if path == "/token" then Limited(LoginBucket)
    else if StartsWith(path, "/tareas") then Limited(TaskBucket)
    else Limited(GeneralBucket)
  }

  /** The key a client is counted under: the first comma-separated entry of a
      non-empty `X-Forwarded-For`, whitespace-stripped; otherwise the peer
      address, or "unknown" when there is none. */
  function ClientKey(req: Request): (k: string)
    ensures req.forwardedFor.Some? && req.forwardedFor.value != "" ==>
              && ',' !in k
              && (|k| > 0 ==> !IsSpace(k[0]) && !IsSpace(k[|k| - 1]))
              && exists i :: StrippedAt(FirstField(req.forwardedFor.value, ','), k, i)
    ensures !(req.forwardedFor.Some? && req.forwardedFor.value != "") ==>
              k == (if req.clientHost.Some? then req.clientHost.value else "unknown")
  {
    if req.forwardedFor.Some? && req.forwardedFor.value != "" then
      var first := FirstField(req.forwardedFor.value, ',');
      var k := Strip(first);
      assert forall c :: c in k ==> c in first by {
        var i :| StrippedAt(first, k, i);
        forall c | c in k ensures c in first {
          var j :| 0 <= j < |k| && k[j] == c;
          assert first[i + j] == c;
        }
      }
      k
    else if req.clientHost.Some? then req.clientHost.value
    else "unknown"
  }

  /** The timestamps of `ts` that lie strictly after `cutoff`, in order (the
      list comprehension `[ts for ts in ... if ts > window_start]`). */
  function Recent(ts: seq<Time>, cutoff: Time): (r: seq<Time>)
    ensures |r| <= |ts|
    ensures forall i :: 0 <= i < |r| ==> r[i] > cutoff
    ensures forall t :: t in r <==> t in ts && t > cutoff
  {
    if |ts| == 0 then []
    else (if ts[0] > cutoff then [ts[0]] else []) + Recent(ts[1..], cutoff)
  }

  /** Every list is non-empty and holds only timestamps after `cutoff`. */
  predicate FreshWindow(w: Window, cutoff: Time) {
    forall k :: k in w ==> |w[k]| > 0 && forall i :: 0 <= i < |w[k]| ==> w[k][i] > cutoff
  }

  predicate Fresh(st: State, cutoff: Time) {
    FreshWindow(st.general, cutoff) && FreshWindow(st.login, cutoff) && FreshWindow(st.task, cutoff)
  }

  /** The timestamps recorded for `key`, or none. */
  function History(w: Window, key: string): seq<Time> {
    if key in w then w[key] else []
  }

  /** The clean-up loop run over one map: stale timestamps are dropped and a
      key whose list becomes empty is deleted. */
  function Prune(w: Window, cutoff: Time): (r: Window)
    ensures FreshWindow(r, cutoff)
    ensures forall k :: History(r, k) == Recent(History(w, k), cutoff)
  {
    var r := map k | k in w && |Recent(w[k], cutoff)| > 0 :: Recent(w[k], cutoff);
    assert forall k :: History(r, k) == Recent(History(w, k), cutoff) by {
      forall k ensures History(r, k) == Recent(History(w, k), cutoff) {
        if k !in w {
          assert History(w, k) == [];
        }
      }
    }
    r
  }

  /** The clean-up loops over all three maps. */
  function PruneAll(st: State, cutoff: Time): (r: State)
    ensures Fresh(r, cutoff)
    ensures forall b :: r.Get(b) == Prune(st.Get(b), cutoff)
  {
    State(Prune(st.general, cutoff), Prune(st.login, cutoff), Prune(st.task, cutoff))
  }

  /** Appends `now` to the list of `key`, creating it when absent. */
  function Record(w: Window, key: string, now: Time): (r: Window)
    ensures History(r, key) == History(w, key) + [now]
    ensures forall k :: k != key ==> History(r, k) == History(w, k)
    ensures forall cutoff :: FreshWindow(w, cutoff) && now > cutoff ==> FreshWindow(r, cutoff)
  {
    w[key := History(w, key) + [now]]
  }

  /** One request through the middleware. */
  function Step(st: State, req: Request, now: Time, limits: Limits): (o: Outcome)
    ensures RouteOf(req.path) == Exempt ==> o == Outcome(st, Forward)
    ensures RouteOf(req.path).Limited? ==> Fresh(o.state, now - WINDOW)
    ensures RouteOf(req.path).Limited? ==>
              var b := RouteOf(req.path).bucket;
              var h := History(o.state.Get(b), ClientKey(req));
              && h == Recent(History(st.Get(b), ClientKey(req)), now - WINDOW) + [now]
              && (o.verdict.Reject? <==> |h| > limits.Of(b))
              && (o.verdict.Reject? ==> o.verdict.error == TOO_MANY_REQUESTS)
    ensures RouteOf(req.path).Limited? ==>
              var b := RouteOf(req.path).bucket;
              && (forall k :: k != ClientKey(req) ==>
                    History(o.state.Get(b), k) == Recent(History(st.Get(b), k), now - WINDOW))
              && (forall b' :: b' != b ==> o.state.Get(b') == Prune(st.Get(b'), now - WINDOW))
  {
    match RouteOf(req.path)
    case Exempt => Outcome(st, Forward)
    case Limited(b) =>
      var pruned := PruneAll(st, now - WINDOW);
      var key := ClientKey(req);
      var w := Record(pruned.Get(b), key, now);
      var h := History(w, key);
      Outcome(pruned.With(b, w), if |h| > limits.Of(b) then Reject(TOO_MANY_REQUESTS) else Forward)
  }

  /* ---------- traces of requests ---------- */

  /** The same request replayed at each of `times`, from `st`; the result is
      the state after the last one and the last one's verdict. */
  function Replay(st: State, req: Request, times: seq<Time>, limits: Limits): Outcome
    requires |times| > 0
    decreases |times|
  {
    var o := Step(st, req, times[0], limits);
    if |times| == 1 then o else Replay(o.state, req, times[1..], limits)
  }

  /** Every time of a non-empty trace lies within the window that ends at
      its last time, and none lies after it. */
  predicate WithinOneWindow(ts: seq<Time>) {
    |ts| > 0 && forall i :: 0 <= i < |ts| ==> ts[|ts| - 1] - WINDOW < ts[i] <= ts[|ts| - 1]
  }

  lemma {:induction false} RecentConcat(a: seq<Time>, b: seq<Time>, cutoff: Time)
    ensures Recent(a + b, cutoff) == Recent(a, cutoff) + Recent(b, cutoff)
    decreases |a|
  {
    if |a| == 0 {
      assert a + b == b;
    } else {
      assert (a + b)[1..] == a[1..] + b;
      RecentConcat(a[1..], b, cutoff);
    }
  }

  /** Pruning at an earlier cutoff and then a later one is pruning at the
      later one. */
  lemma {:induction false} RecentTwice(ts: seq<Time>, early: Time, late: Time)
    requires early <= late
    ensures Recent(Recent(ts, early), late) == Recent(ts, late)
    decreases |ts|
  {
    if |ts| > 0 {
      var head := if ts[0] > early then [ts[0]] else [];
      RecentConcat(head, Recent(ts[1..], early), late);
      RecentTwice(ts[1..], early, late);
    }
  }

  /** A list whose timestamps are all after the cutoff survives pruning whole. */
  lemma {:induction false} RecentKeepsAll(ts: seq<Time>, cutoff: Time)
    requires forall i :: 0 <= i < |ts| ==> ts[i] > cutoff
    ensures Recent(ts, cutoff) == ts
    decreases |ts|
  {
    if |ts| > 0 {
      RecentKeepsAll(ts[1..], cutoff);
      assert ts == [ts[0]] + ts[1..];
    }
  }

  /** The client's history a replay leaves, computed on the history alone. */
  function ReplayedHistory(h: seq<Time>, times: seq<Time>): seq<Time>
    decreases |times|
  {
    if |times| == 0 then h else ReplayedHistory(Recent(h, times[0] - WINDOW) + [times[0]], times[1..])
  }

  /** A replay changes the client's history in its bucket exactly as
      `ReplayedHistory` does. */
  lemma {:induction false} ReplayProjects(st: State, req: Request, times: seq<Time>, limits: Limits)
    requires RouteOf(req.path).Limited?
    requires |times| > 0
    ensures var b := RouteOf(req.path).bucket;
            History(Replay(st, req, times, limits).state.Get(b), ClientKey(req))
              == ReplayedHistory(History(st.Get(b), ClientKey(req)), times)
    decreases |times|
  {
    var s1 := Step(st, req, times[0], limits).state;
    if |times| > 1 {
      ReplayProjects(s1, req, times[1..], limits);
    }
  }

  /** On times inside one window ending at `c + WINDOW`, the replayed
      history is the part of the old one after `c`, then all the times. */
  lemma {:induction false} ReplayedHistoryAt(h: seq<Time>, times: seq<Time>, c: Time)
    requires |times| > 0
    requires c == times[|times| - 1] - WINDOW
    requires forall i :: 0 <= i < |times| ==> c < times[i] <= c + WINDOW
    ensures ReplayedHistory(h, times) == Recent(h, c) + times
    decreases |times|
  {
    var t0 := times[0];
    var h1 := Recent(h, t0 - WINDOW) + [t0];
    if |times| == 1 {
      assert times == [t0];
      assert ReplayedHistory(h1, times[1..]) == h1;
    } else {
      var rest := times[1..];
      assert rest[|rest| - 1] == times[|times| - 1];
      ReplayedHistoryAt(h1, rest, c);
      calc {
        Recent(h1, c);
      == { RecentConcat(Recent(h, t0 - WINDOW), [t0], c); }
        Recent(Recent(h, t0 - WINDOW), c) + Recent([t0], c);
      == { RecentTwice(h, t0 - WINDOW, c); RecentKeepsAll([t0], c); }
        Recent(h, c) + [t0];
      }
      assert times == [t0] + rest;
    }
  }

  /** Replaying a request at times that all fall inside one window leaves in
      its bucket exactly the earlier timestamps still inside the window at the
      last request, followed by every one of the replayed times: rejected
      requests occupy the window too. */
  lemma ReplayHistory(st: State, req: Request, times: seq<Time>, limits: Limits)
    requires RouteOf(req.path).Limited?
    requires WithinOneWindow(times)
    ensures var b := RouteOf(req.path).bucket;
            History(Replay(st, req, times, limits).state.Get(b), ClientKey(req))
              == Recent(History(st.Get(b), ClientKey(req)), times[|times| - 1] - WINDOW) + times
  {
    ReplayProjects(st, req, times, limits);
    ReplayedHistoryAt(History(st.Get(RouteOf(req.path).bucket), ClientKey(req)), times, times[|times| - 1] - WINDOW);
  }

  /** The verdict of a replay is the verdict its last request got against
      the history it left behind. */
  lemma {:induction false} ReplayVerdict(st: State, req: Request, times: seq<Time>, limits: Limits)
    requires RouteOf(req.path).Limited?
    requires |times| > 0
    ensures var b := RouteOf(req.path).bucket;
            var o := Replay(st, req, times, limits);
            o.verdict.Reject? <==> |History(o.state.Get(b), ClientKey(req))| > limits.Of(b)
    decreases |times|
  {
    if |times| > 1 {
      ReplayVerdict(Step(st, req, times[0], limits).state, req, times[1..], limits);
    }
  }

  /** With a limit of N, the (N+1)-th request from one client to one bucket
      within a window is refused with 429, whatever came before. */
  lemma BurstRejected(st: State, req: Request, times: seq<Time>, limits: Limits)
    requires RouteOf(req.path).Limited?
    requires limits.Of(RouteOf(req.path).bucket) >= 0
    requires |times| == limits.Of(RouteOf(req.path).bucket) + 1
    requires WithinOneWindow(times)
    ensures Replay(st, req, times, limits).verdict == Reject(TOO_MANY_REQUESTS)
  {
    ReplayHistory(st, req, times, limits);
    ReplayVerdict(st, req, times, limits);
    if |times| > 1 {
      RejectCarriesMessage(Step(st, req, times[0], limits).state, req, times[1..], limits);
    }
  }

  /** A refused replay is refused with the 429 "Demasiadas solicitudes" body. */
  lemma {:induction false} RejectCarriesMessage(st: State, req: Request, times: seq<Time>, limits: Limits)
    requires RouteOf(req.path).Limited?
    requires |times| > 0
    ensures Replay(st, req, times, limits).verdict.Reject? ==>
              Replay(st, req, times, limits).verdict.error == TOO_MANY_REQUESTS
    decreases |times|
  {
    if |times| > 1 {
      RejectCarriesMessage(Step(st, req, times[0], limits).state, req, times[1..], limits);
    }
  }

  /** Once every timestamp of a client in a bucket is a full window old, its
      next request to that bucket is admitted (for any positive limit). */
  lemma QuietClientAdmitted(st: State, req: Request, now: Time, limits: Limits)
    requires RouteOf(req.path).Limited?
    requires limits.Of(RouteOf(req.path).bucket) >= 1
    requires var h := History(st.Get(RouteOf(req.path).bucket), ClientKey(req));
             forall i :: 0 <= i < |h| ==> h[i] <= now - WINDOW
    ensures Step(st, req, now, limits).verdict == Forward
  {
    RecentDropsAll(History(st.Get(RouteOf(req.path).bucket), ClientKey(req)), now - WINDOW);
  }

  lemma {:induction false} RecentDropsAll(ts: seq<Time>, cutoff: Time)
    requires forall i :: 0 <= i < |ts| ==> ts[i] <= cutoff
    ensures Recent(ts, cutoff) == []
    decreases |ts|
  {
    if |ts| > 0 {
      RecentDropsAll(ts[1..], cutoff);
    }
  }
}

=== FILE: schemas.dfy ===
/** The request-body validation of backend/app/schemas.py: the username and
    password validators of `UsuarioCrear`, the field bounds of `TareaBase`
    (creation) and `TareaUpdate`, and the `expires_in` default.

    A JSON field is missing, `null`, or a value of the declared type; type
    coercion is not modelled. Pydantic reports one error per field, at most,
    and collects the errors of all fields. */
module Schemas {
  import opened Common
  import Config
  import Tasks
  import Passwords

  datatype Input<T> = Missing | Null | Given(value: T)

  datatype FieldError =
    | Required(field: string)
    | NotNull(field: string)
    | TooShort(field: string, min: int)
    | TooLong(field: string, max: int)
    | OutOfRange(field: string, lo: int, hi: int)
    | Rejected(field: string, message: string)

  datatype Validated<T> = Valid(value: T) | Invalid(errors: seq<FieldError>)

  /** `expires_in` of `Token` and `RefreshTokenResponse` when not given. */
  const EXPIRES_IN_DEFAULT: int := Config.ACCESS_TOKEN_EXPIRE_MINUTES * 60

  /** A string's `min_length`/`max_length` constraint. */
  function LengthError(field: string, s: string, min: int, max: int): (e: Option<FieldError>)
    ensures e.None? <==> min <= |s| <= max
    ensures |s| < min ==> e == Some(TooShort(field, min))
    ensures min <= |s| && |s| > max ==> e == Some(TooLong(field, max))
  {
    if |s| < min then Some(TooShort(field, min))
    else if |s| > max then Some(TooLong(field, max))
    else None
  }

  function Errors(e: Option<FieldError>): seq<FieldError> {
    if e.Some? then [e.value] else []
  }

  /* ---------- usernames ---------- */

  const USERNAME_CHARS_MESSAGE: string := "El username solo puede contener letras, números, guiones y guiones bajos"

  /** One character of the class `[a-zA-Z0-9_-]`. */
  predicate UsernameChar(c: char) {
    ('a' <= c <= 'z') || ('A' <= c <= 'Z') || ('0' <= c <= '9') || c == '_' || c == '-'
  }

  predicate AllUsernameChars(s: string) {
    forall i :: 0 <= i < |s| ==> UsernameChar(s[i])
  }

  /** Where Python's `$` (without MULTILINE) can match: at the very end, or
      just before a newline that ends the string. */
  predicate DollarAt(v: string, n: int) {
    n == |v| || (0 <= n == |v| - 1 && v[n] == '\n')
  }

  /** `re.match(r'^[a-zA-Z0-9_-]+$', v)` as Python evaluates it: a non-empty
      run of allowed characters from the start, followed by `$`. */
  predicate UsernameRegexAsWritten(v: string) {
    exists n :: 1 <= n <= |v| && AllUsernameChars(v[..n]) && DollarAt(v, n)
  }

  /** The intended test: the whole string is a non-empty run of allowed
      characters (`re.fullmatch`, or `\Z` in place of `$`). */
  predicate UsernameRegex(v: string) {
    |v| > 0 && AllUsernameChars(v)
  }

  /** The `username` field as written: length 3..50, then the pattern. */
  function ValidateUsernameAsWritten(v: string): (e: Option<FieldError>)
    ensures e.None? <==> 3 <= |v| <= 50 && UsernameRegexAsWritten(v)
  {
    match LengthError("username", v, 3, 50)
    case Some(err) => Some(err)
    case None => if UsernameRegexAsWritten(v) then None else Some(Rejected("username", USERNAME_CHARS_MESSAGE))
  }

  /** The `username` field with the intended pattern. */
  function ValidateUsername(v: string): (e: Option<FieldError>)
    ensures e.None? <==> 3 <= |v| <= 50 && forall i :: 0 <= i < |v| ==> UsernameChar(v[i])
    ensures e.Some? && 3 <= |v| <= 50 ==> e.value == Rejected("username", USERNAME_CHARS_MESSAGE)
  {
    match LengthError("username", v, 3, 50)
    case Some(err) => Some(err)
    case None => if UsernameRegex(v) then None else Some(Rejected("username", USERNAME_CHARS_MESSAGE))
  }

  /** The pattern as written accepts exactly what the intended one accepts,
      plus those strings followed by one final newline. */
  lemma UsernameRegexDifference(v: string)
    ensures UsernameRegexAsWritten(v) <==>
              UsernameRegex(v) || (|v| >= 2 && v[|v| - 1] == '\n' && UsernameRegex(v[..|v| - 1]))
  {
    if UsernameRegex(v) {
      assert v[..|v|] == v;
      assert DollarAt(v, |v|);
    }
    if |v| >= 2 && v[|v| - 1] == '\n' && UsernameRegex(v[..|v| - 1]) {
      assert DollarAt(v, |v| - 1);
    }
    if UsernameRegexAsWritten(v) {
      var n :| 1 <= n <= |v| && AllUsernameChars(v[..n]) && DollarAt(v, n);
      if n == |v| {
        assert v[..n] == v;
      }
    }
  }

  /** "abc\n" passes the username validator as written, although a newline is
      not one of the allowed characters. */
  lemma TrailingNewlineUsername()
    ensures ValidateUsernameAsWritten("abc\n").None?
    ensures !UsernameChar("abc\n"[3])
    ensures ValidateUsername("abc\n") == Some(Rejected("username", USERNAME_CHARS_MESSAGE))
  {
    var v := "abc\n";
    assert AllUsernameChars(v[..3]) && DollarAt(v, 3);
    assert !UsernameChar(v[3]);
  }

  /* ---------- registration ---------- */

  /** The `password` field: the length bounds are checked first, then
      `validate_password_strength`, whose message becomes the error. */
  function ValidatePassword(v: string, cc: Passwords.CharClasses, schema: string -> bool, common: set<string>)
    : (e: Option<FieldError>)
    ensures e.None? <==>
              && Config.MIN_PASSWORD_LENGTH <= |v| <= Config.MAX_PASSWORD_LENGTH
              && Passwords.ValidatePasswordStrength(v, cc, schema, common).valid
    ensures Config.MIN_PASSWORD_LENGTH <= |v| <= Config.MAX_PASSWORD_LENGTH && e.Some? ==>
              e.value == Rejected("password", Passwords.ValidatePasswordStrength(v, cc, schema, common).message)
  {
    match LengthError("password", v, Config.MIN_PASSWORD_LENGTH, Config.MAX_PASSWORD_LENGTH)
    case Some(err) => Some(err)
    case None =>
      var verdict := Passwords.ValidatePasswordStrength(v, cc, schema, common);
      if verdict.valid then None else Some(Rejected("password", verdict.message))
  }

  datatype Registration = Registration(email: string, username: string, password: string)

  /** A required string field that passes its own validator. */
  function RequiredString(field: string, input: Input<string>, check: string -> Option<FieldError>)
    : (e: Option<FieldError>)
    ensures e.None? <==> input.Given? && check(input.value).None?
  {
    match input
    case Missing => Some(Required(field))
    case Null => Some(NotNull(field))
    case Given(s) => check(s)
  }

  /** `UsuarioCrear`: email, username and password, each validated, all errors
      reported. `emailCheck` is the e-mail syntax check of `EmailStr`, with
      its own error. */
  function ParseRegistration(email: Input<string>, username: Input<string>, password: Input<string>,
                             emailCheck: string -> Option<FieldError>, cc: Passwords.CharClasses,
                             schema: string -> bool, common: set<string>): (r: Validated<Registration>)
    ensures r.Valid? <==>
              && email.Given? && emailCheck(email.value).None?
              && username.Given? && ValidateUsernameAsWritten(username.value).None?
              && password.Given? && ValidatePassword(password.value, cc, schema, common).None?
    ensures r.Valid? ==> r.value == Registration(email.value, username.value, password.value)
    ensures r.Invalid? ==> 1 <= |r.errors| <= 3
  {
    var e1 := RequiredString("email", email, emailCheck);
    var e2 := RequiredString("username", username, ValidateUsernameAsWritten);
    var e3 := RequiredString("password", password, s => ValidatePassword(s, cc, schema, common));
    var errs := Errors(e1) + Errors(e2) + Errors(e3);
    if |errs| == 0 then Valid(Registration(email.value, username.value, password.value)) else Invalid(errs)
  }

  /** A registered username is 3 to 50 characters, every one of them a
      letter, digit, `_` or `-`, except that the pattern's `$` also lets one
      final newline through; a registered password passes the strength
      rules. */
  lemma RegisteredFields(email: Input<string>, username: Input<string>, password: Input<string>,
                         emailCheck: string -> Option<FieldError>, cc: Passwords.CharClasses,
                         schema: string -> bool, common: set<string>)
    requires ParseRegistration(email, username, password, emailCheck, cc, schema, common).Valid?
    ensures var reg := ParseRegistration(email, username, password, emailCheck, cc, schema, common).value;
            var n := |reg.username|;
            && 3 <= n <= 50
            && ((forall i :: 0 <= i < n ==> UsernameChar(reg.username[i])) ||
                (reg.username[n - 1] == '\n' && forall i :: 0 <= i < n - 1 ==> UsernameChar(reg.username[i])))
            && Passwords.ValidatePasswordStrength(reg.password, cc, schema, common).valid
  {
    var reg := ParseRegistration(email, username, password, emailCheck, cc, schema, common).value;
    UsernameRegexDifference(reg.username);
  }

  /* ---------- tasks ---------- */

  /** Bounds a created task satisfies. */
  predicate FieldsOk(f: Tasks.Fields) {
    && 1 <= |f.titulo| <= 100
    && (f.descripcion.Some? ==> |f.descripcion.value| <= 500)
    && 1 <= f.prioridad <= 3
  }

  function TituloError(s: string): Option<FieldError> {
    LengthError("titulo", s, 1, 100)
  }

  function DescripcionError(s: string): Option<FieldError> {
    LengthError("descripcion", s, 0, 500)
  }

  function PrioridadError(n: int): (e: Option<FieldError>)
    ensures e.None? <==> 1 <= n <= 3
  {
    if 1 <= n <= 3 then None else Some(OutOfRange("prioridad", 1, 3))
  }

  /** `TareaCreate`: `titulo` required, `descripcion` optional and nullable,
      `completado` defaulting to false and `prioridad` to 1. */
  function ParseTaskCreate(titulo: Input<string>, descripcion: Input<string>, completado: Input<bool>,
                           prioridad: Input<int>): (r: Validated<Tasks.Fields>)
    ensures r.Valid? ==> FieldsOk(r.value)
    ensures r.Valid? ==>
              && titulo == Given(r.value.titulo)
              && (descripcion.Given? <==> r.value.descripcion.Some?)
              && (descripcion.Given? ==> r.value.descripcion.value == descripcion.value)
              && r.value.completado == (if completado.Given? then completado.value else false)
              && r.value.prioridad == (if prioridad.Given? then prioridad.value else 1)
    ensures titulo.Missing? || completado.Null? || prioridad.Null? ==> r.Invalid?
  {
    var e1 := match titulo
              case Missing => Some(Required("titulo"))
              case Null => Some(NotNull("titulo"))
              case Given(s) => TituloError(s);
    var e2 := if descripcion.Given? then DescripcionError(descripcion.value) else None;
    var e3 := if completado.Null? then Some(NotNull("completado")) else None;
    var e4 := match prioridad
              case Missing => None
              case Null => Some(NotNull("prioridad"))
              case Given(n) => PrioridadError(n);
    var errs := Errors(e1) + Errors(e2) + Errors(e3) + Errors(e4);
    if |errs| > 0 then Invalid(errs)
    else Valid(Tasks.Fields(titulo.value,
                            if descripcion.Given? then Some(descripcion.value) else None,
                            if completado.Given? then completado.value else false,
                            if prioridad.Given? then prioridad.value else 1))
  }

  /** The body that spells out every field of a task is accepted exactly when
      the task satisfies the bounds, and then parses back to that task. */
  lemma TaskCreateRoundTrip(f: Tasks.Fields)
    ensures var r := ParseTaskCreate(Given(f.titulo),
                                     if f.descripcion.Some? then Given(f.descripcion.value) else Null,
                                     Given(f.completado), Given(f.prioridad));
            (r.Valid? <==> FieldsOk(f)) && (r.Valid? ==> r.value == f)
  {
  }

  /** Only a title: the other fields take their defaults. */
  lemma TaskCreateDefaults(t: string)
    requires 1 <= |t| <= 100
    ensures ParseTaskCreate(Given(t), Missing, Missing, Missing) == Valid(Tasks.Fields(t, None, false, 1))
  {
  }

  /** A `TareaUpdate` body: per field, not sent, or sent as null or a value. */
  datatype UpdateBody = UpdateBody(
    titulo: Option<Option<string>>,
    descripcion: Option<Option<string>>,
    completado: Option<Option<bool>>,
    prioridad: Option<Option<int>>)

  function Sent<T>(i: Input<T>): Option<Option<T>> {
    match i
    case Missing => None
    case Null => Some(None)
    case Given(v) => Some(Some(v))
  }

  /** `TareaUpdate`: every field optional and nullable; a sent value obeys
      the same bounds as on creation. */
  function ParseTaskUpdate(titulo: Input<string>, descripcion: Input<string>, completado: Input<bool>,
                           prioridad: Input<int>): (r: Validated<UpdateBody>)
    ensures r.Valid? <==>
              && (titulo.Given? ==> 1 <= |titulo.value| <= 100)
              && (descripcion.Given? ==> |descripcion.value| <= 500)
              && (prioridad.Given? ==> 1 <= prioridad.value <= 3)
    ensures r.Valid? ==> r.value == UpdateBody(Sent(titulo), Sent(descripcion), Sent(completado), Sent(prioridad))
  {
    var e1 := if titulo.Given? then TituloError(titulo.value) else None;
    var e2 := if descripcion.Given? then DescripcionError(descripcion.value) else None;
    var e4 := if prioridad.Given? then PrioridadError(prioridad.value) else None;
    var errs := Errors(e1) + Errors(e2) + Errors(e4);
    if |errs| > 0 then Invalid(errs)
    else Valid(UpdateBody(Sent(titulo), Sent(descripcion), Sent(completado), Sent(prioridad)))
  }

  /** The patch the store applies. A null for `titulo`, `completado` or
      `prioridad` is accepted by the schema but cannot be written to a
      NOT NULL column: `None` marks that case, which ends in a server error. */
  function AsPatch(b: UpdateBody): (p: Option<Tasks.Patch>)
    ensures p.None? <==> b.titulo == Some(None) || b.completado == Some(None) || b.prioridad == Some(None)
    ensures p.Some? ==>
              && (p.value.titulo.Some? <==> b.titulo.Some?)
              && p.value.descripcion == b.descripcion
              && (p.value.completado.Some? <==> b.completado.Some?)
              && (p.value.prioridad.Some? <==> b.prioridad.Some?)
    ensures forall x :: p.Some? && b.titulo == Some(Some(x)) ==> p.value.titulo == Some(x)
    ensures forall x :: p.Some? && b.completado == Some(Some(x)) ==> p.value.completado == Some(x)
    ensures forall x :: p.Some? && b.prioridad == Some(Some(x)) ==> p.value.prioridad == Some(x)
  {
    if b.titulo == Some(None) || b.completado == Some(None) || b.prioridad == Some(None) then None
    else Some(Tasks.Patch(Flatten(b.titulo), b.descripcion, Flatten(b.completado), Flatten(b.prioridad)))
  }

  function Flatten<T>(o: Option<Option<T>>): Option<T> {
    if o.Some? && o.value.Some? then Some(o.value.value) else None
  }

  /** An update that passes the schema and writes only non-null values keeps
      the task within the creation bounds. */
  lemma UpdateKeepsBounds(t: Tasks.Task, titulo: Input<string>, descripcion: Input<string>,
                          completado: Input<bool>, prioridad: Input<int>)
    requires FieldsOk(Tasks.Fields(t.titulo, t.descripcion, t.completado, t.prioridad))
    requires ParseTaskUpdate(titulo, descripcion, completado, prioridad).Valid?
    requires AsPatch(ParseTaskUpdate(titulo, descripcion, completado, prioridad).value).Some?
    ensures var p := AsPatch(ParseTaskUpdate(titulo, descripcion, completado, prioridad).value).value;
            var u := Tasks.ApplyPatch(t, p);
            FieldsOk(Tasks.Fields(u.titulo, u.descripcion, u.completado, u.prioridad))
  {
  }
}

=== FILE: sessions.dfy ===
/** The refresh-token records of backend/app/crud.py: `create_refresh_token`,
    `get_refresh_token`, `revoke_refresh_token`, `revoke_all_user_tokens`.

    The `token` column is unique, so the table is a map from token string to
    the rest of the row. Times are whole seconds. */
module Sessions {
  import opened Common
  import Config

  datatype Record = Record(owner: int, expiresAt: int, revoked: bool)

  type Store = map<string, Record>

  /** A record still serves: not revoked and not yet expired (strictly). */
  predicate Usable(r: Record, now: int) {
    !r.revoked && r.expiresAt > now
  }

  /** `create_refresh_token` (crud): a new unrevoked record that expires
      `REFRESH_TOKEN_EXPIRE_DAYS` from now. A token already stored violates
      the unique column and the call fails with 500; `cause` is the database's
      message. */
  function Create(store: Store, token: string, owner: int, now: int, cause: string): (r: Result<Store>)
    ensures token in store <==> r.Err?
    ensures r.Err? ==> r.error.status == 500
    ensures r.Ok? ==> r.value == store[token := Record(owner, now + Config.REFRESH_TOKEN_SECONDS, false)]
  {
    if token in store then Err(ServerError("Error al crear refresh token", cause))
    else Ok(store[token := Record(owner, now + Config.REFRESH_TOKEN_SECONDS, false)])
  }

  /** `get_refresh_token`: the record of `token` when it is usable. */
  function Get(store: Store, token: string, now: int): (r: Option<Record>)
    ensures r.Some? <==> token in store && Usable(store[token], now)
    ensures r.Some? ==> r.value == store[token]
  {
    if token in store && Usable(store[token], now) then Some(store[token]) else None
  }

  datatype Revoked = Revoked(store: Store, found: bool)

  /** `revoke_refresh_token`: marks the record revoked whatever its state and
      reports whether there was one; an unknown token changes nothing. */
  function Revoke(store: Store, token: string): (r: Revoked)
    ensures r.found <==> token in store
    ensures r.store.Keys == store.Keys
    ensures token in store ==> r.store[token] == store[token].(revoked := true)
    ensures forall t :: t in store && t != token ==> r.store[t] == store[t]
  {
    if token in store then Revoked(store[token := store[token].(revoked := true)], true)
    else Revoked(store, false)
  }

  /** `revoke_all_user_tokens`: every unrevoked record of `owner` becomes
      revoked; records of other users are untouched. */
  function RevokeAll(store: Store, owner: int): (r: Store)
    ensures r.Keys == store.Keys
    ensures forall t :: t in store && store[t].owner == owner ==> r[t] == store[t].(revoked := true)
    ensures forall t :: t in store && store[t].owner != owner ==> r[t] == store[t]
  {
    map t | t in store :: if store[t].owner == owner then store[t].(revoked := true) else store[t]
  }

  /** A stored token is usable right after creation and until its expiry,
      and not afterwards. */
  lemma CreatedIsUsable(store: Store, token: string, owner: int, now: int, cause: string, t: int)
    requires token !in store
    ensures var s := Create(store, token, owner, now, cause).value;
            Get(s, token, t).Some? <==> t < now + Config.REFRESH_TOKEN_SECONDS
  {
  }

  /** Revoking is idempotent, and a revoked token never serves again. */
  lemma RevokeIdempotent(store: Store, token: string, now: int)
    ensures Revoke(Revoke(store, token).store, token).store == Revoke(store, token).store
    ensures Get(Revoke(store, token).store, token, now) == None
  {
  }

  /** After logging out everywhere, none of the user's tokens serves; every
      other user's tokens serve exactly as before. */
  lemma RevokeAllEndsSessions(store: Store, owner: int, now: int)
    ensures var s := RevokeAll(store, owner);
            && (forall t :: t in store && store[t].owner == owner ==> Get(s, t, now) == None)
            && (forall t :: t in store && store[t].owner != owner ==> Get(s, t, now) == Get(store, t, now))
  {
  }
}

=== FILE: task_context.dfy ===
/** The task state the React client keeps (frontend/src/contexts/TaskContext.js):
    the list of tasks, the loading flag, the error text and the pagination,
    and how each call to the server changes them once it has finished.

    The server's answer is a parameter of each operation: a value on
    success, or a failure carrying the response's `detail`, if any. Only
    answers other than 429 are modelled. */
module TaskContext {
  import opened Common
  import Tasks

  /** A task as the client holds it; `fecha` is an ISO date text or absent. */
  datatype ClientTask = ClientTask(
    id: int,
    titulo: string,
    descripcion: Option<string>,
    completado: bool,
    prioridad: int,
    fecha: Option<string>)

  datatype Pagination = Pagination(total: int, page: int, size: int, pages: int)

  datatype State = State(tasks: seq<ClientTask>, loading: bool, error: Option<string>, pagination: Pagination)

  /** A page of tasks as the listing endpoint returns it. */
  datatype PageBody = PageBody(items: seq<ClientTask>, total: int, page: int, size: int, pages: int)

  /** The outcome of one call to the server. */
  datatype Answer<T> = Succeeded(value: T) | Failed(detail: Option<string>)

  /** The result object the create, update and delete functions return. */
  datatype Done = Done(state: State, success: bool)

  const INITIAL: State := State([], false, None, Pagination(0, 1, 10, 0))

  const GENERIC_ERROR: string := "Error en la operación"
  const FETCH_ERROR: string := "Error al cargar tareas"
  const CREATE_ERROR: string := "Error al crear tarea"
  const UPDATE_ERROR: string := "Error al actualizar tarea"
  const DELETE_ERROR: string := "Error al eliminar tarea"

  /** JavaScript `detail || fallback`: an absent or empty detail is falsy. */
  function Message(detail: Option<string>, fallback: string): (m: string)
    ensures detail.Some? && detail.value != "" ==> m == detail.value
    ensures detail.None? || detail.value == "" ==> m == fallback
  {
    if detail.Some? && detail.value != "" then detail.value else fallback
  }

  /* ---------- failures ---------- */

  /** A failed call as the code runs it: `handleApiError` stores
      `detail || 'Error en la operación'`, and the operation's own fallback in
      the `catch` block is never stored, because its guard
      `!error.response?.status === 429` compares a boolean with a number. */
  function FailAsWritten(st: State, detail: Option<string>, fallback: string): (r: State)
    ensures r.tasks == st.tasks && r.pagination == st.pagination
    ensures r.error == Some(Message(detail, GENERIC_ERROR))
  {
    st.(error := Some(Message(detail, GENERIC_ERROR)))
  }

  /** A failed call with the guard meant as `status !== 429`: the `catch` block
      runs after `handleApiError` and its message, the detail or the
      operation's own fallback, is what stays. */
  function Fail(st: State, detail: Option<string>, fallback: string): (r: State)
    ensures r.tasks == st.tasks && r.pagination == st.pagination
    ensures r.error.Some?
    ensures (detail.None? || detail.value == "") ==> r.error == Some(fallback)
    ensures detail.Some? && detail.value != "" ==> r.error == detail
  {
    var first := FailAsWritten(st, detail, fallback);
    first.(error := Some(Message(detail, fallback)))
  }

  /** The two differ exactly when the server sent no usable detail: a failed
      fetch without one reports the generic text instead of the fetch's. */
  lemma FallbackNeverShown(st: State, detail: Option<string>, fallback: string)
    requires fallback != GENERIC_ERROR
    ensures (FailAsWritten(st, detail, fallback).error == Fail(st, detail, fallback).error)
              <==> (detail.Some? && detail.value != "")
    ensures FailAsWritten(st, None, FETCH_ERROR).error == Some(GENERIC_ERROR)
    ensures Fail(st, None, FETCH_ERROR).error == Some(FETCH_ERROR)
  {
  }

  /* ---------- list updates ---------- */

  /** `tasks.map(task => task.id === id ? updated : task)`. */
  function ReplaceById(ts: seq<ClientTask>, id: int, updated: ClientTask): (r: seq<ClientTask>)
    ensures |r| == |ts|
    ensures forall i :: 0 <= i < |ts| && ts[i].id == id ==> r[i] == updated
    ensures forall i :: 0 <= i < |ts| && ts[i].id != id ==> r[i] == ts[i]
  {
    seq(|ts|, i requires 0 <= i < |ts| => if ts[i].id == id then updated else ts[i])
  }

  /** `tasks.filter(task => task.id !== id)`. */
  function RemoveById(ts: seq<ClientTask>, id: int): (r: seq<ClientTask>)
    ensures forall x :: x in r <==> x in ts && x.id != id
    ensures |r| <= |ts|
  {
    if |ts| == 0 then []
    else if ts[0].id == id then RemoveById(ts[1..], id)
    else [ts[0]] + RemoveById(ts[1..], id)
  }

  /** Removing works piecewise, so the survivors keep their order. */
  lemma {:induction false} RemoveKeepsOrder(a: seq<ClientTask>, b: seq<ClientTask>, id: int)
    ensures RemoveById(a + b, id) == RemoveById(a, id) + RemoveById(b, id)
  {
    if |a| > 0 {
      assert (a + b)[1..] == a[1..] + b;
      RemoveKeepsOrder(a[1..], b, id);
    } else {
      assert a + b == b;
    }
  }

  /** Removing an id nobody has changes nothing. */
  lemma {:induction false} RemoveAbsent(ts: seq<ClientTask>, id: int)
    requires forall i :: 0 <= i < |ts| ==> ts[i].id != id
    ensures RemoveById(ts, id) == ts
  {
    if |ts| > 0 {
      RemoveAbsent(ts[1..], id);
      assert [ts[0]] + ts[1..] == ts;
    }
  }

  /* ---------- operations ---------- */

  /** `fetchTasks`: on success the list and the pagination are the server's,
      the error is cleared, and loading ends either way. */
  function FetchTasks(st: State, answer: Answer<PageBody>): (r: State)
    ensures !r.loading
    ensures answer.Succeeded? ==>
              && r.tasks == answer.value.items
              && r.error.None?
              && r.pagination == Pagination(answer.value.total, answer.value.page, answer.value.size, answer.value.pages)
    ensures answer.Failed? ==>
              && r.tasks == st.tasks && r.pagination == st.pagination
              && r.error == Some(Message(answer.detail, GENERIC_ERROR))
  {
    match answer
    case Succeeded(p) => State(p.items, false, None, Pagination(p.total, p.page, p.size, p.pages))
    case Failed(d) => FailAsWritten(st.(loading := false), d, FETCH_ERROR)
  }

  /** `createTask`: the new task goes first and the rest keep their order. */
  function CreateTask(st: State, answer: Answer<ClientTask>): (r: Done)
    ensures r.success <==> answer.Succeeded?
    ensures r.success ==> r.state.tasks == [answer.value] + st.tasks && r.state.error.None?
    ensures !r.success ==>
              r.state.tasks == st.tasks && r.state.error == Some(Message(answer.detail, GENERIC_ERROR))
    ensures r.state.pagination == st.pagination && r.state.loading == st.loading
  {
    match answer
    case Succeeded(t) => Done(st.(error := None, tasks := [t] + st.tasks), true)
    case Failed(d) => Done(FailAsWritten(st, d, CREATE_ERROR), false)
  }

  /** `updateTask`: the server's copy replaces every entry with that id. The
      request carries the changes; the state only sees the answer. */
  function UpdateTask(st: State, id: int, changes: Tasks.Patch, send: (int, Tasks.Patch) -> Answer<ClientTask>)
    : (r: Done)
    ensures r.success <==> send(id, changes).Succeeded?
    ensures r.success ==> r.state.tasks == ReplaceById(st.tasks, id, send(id, changes).value) && r.state.error.None?
    ensures !r.success ==>
              r.state.tasks == st.tasks && r.state.error == Some(Message(send(id, changes).detail, GENERIC_ERROR))
    ensures |r.state.tasks| == |st.tasks|
  {
    match send(id, changes)
    case Succeeded(t) => Done(st.(error := None, tasks := ReplaceById(st.tasks, id, t)), true)
    case Failed(d) => Done(FailAsWritten(st, d, UPDATE_ERROR), false)
  }

  /** `deleteTask`: every entry with that id goes. */
  function DeleteTask(st: State, id: int, answer: Answer<()>): (r: Done)
    ensures r.success <==> answer.Succeeded?
    ensures r.success ==> r.state.tasks == RemoveById(st.tasks, id) && r.state.error.None?
    ensures r.success ==> (forall x :: x in r.state.tasks <==> x in st.tasks && x.id != id)
    ensures !r.success ==>
              r.state.tasks == st.tasks && r.state.error == Some(Message(answer.detail, GENERIC_ERROR))
  {
    match answer
    case Succeeded(_) => Done(st.(error := None, tasks := RemoveById(st.tasks, id)), true)
    case Failed(d) => Done(FailAsWritten(st, d, DELETE_ERROR), false)
  }

  /** The changes `toggleTaskStatus` sends: only `completado`. */
  function ToggleChanges(completed: bool): Tasks.Patch {
    Tasks.Patch(None, None, Some(completed), None)
  }

  /** `toggleTaskStatus(id, c)`: an update whose request names `completado`
      alone. On success every entry with that id becomes the server's copy and
      the others stay; on failure the list stays and the error is the generic
      text unless the server sent a detail. */
  function ToggleTaskStatus(st: State, id: int, completed: bool, send: (int, Tasks.Patch) -> Answer<ClientTask>)
    : (r: Done)
    ensures var sent := ToggleChanges(completed);
            && sent.completado == Some(completed)
            && sent.titulo.None? && sent.descripcion.None? && sent.prioridad.None?
    ensures r.success <==> send(id, ToggleChanges(completed)).Succeeded?
    ensures |r.state.tasks| == |st.tasks|
    ensures r.success ==>
              && r.state.error.None?
              && (forall i :: 0 <= i < |st.tasks| && st.tasks[i].id == id ==>
                    r.state.tasks[i] == send(id, ToggleChanges(completed)).value)
              && (forall i :: 0 <= i < |st.tasks| && st.tasks[i].id != id ==> r.state.tasks[i] == st.tasks[i])
    ensures !r.success ==>
              && r.state.tasks == st.tasks
              && r.state.error == Some(Message(send(id, ToggleChanges(completed)).detail, GENERIC_ERROR))
    ensures r.state.pagination == st.pagination && r.state.loading == st.loading
  {
    UpdateTask(st, id, ToggleChanges(completed), send)
  }

  /** `clearError`. */
  function ClearError(st: State): (r: State)
    ensures r.error.None?
    ensures r.tasks == st.tasks && r.loading == st.loading && r.pagination == st.pagination
  {
    st.(error := None)
  }

  /* ---------- properties across operations ---------- */

  /** Creating then deleting the new task, when no other task shares its id,
      gives back the list from before. */
  lemma CreateThenDelete(st: State, t: ClientTask)
    requires forall i :: 0 <= i < |st.tasks| ==> st.tasks[i].id != t.id
    ensures var c := CreateTask(st, Succeeded(t)).state;
            DeleteTask(c, t.id, Succeeded(())).state.tasks == st.tasks
  {
    RemoveKeepsOrder([t], st.tasks, t.id);
    RemoveAbsent(st.tasks, t.id);
  }

  /** A failed call never touches the list, whichever operation it was. */
  lemma FailureKeepsTasks(st: State, id: int, changes: Tasks.Patch, d: Option<string>)
    ensures CreateTask(st, Failed(d)).state.tasks == st.tasks
    ensures UpdateTask(st, id, changes, (i: int, p: Tasks.Patch) => Failed(d)).state.tasks == st.tasks
    ensures DeleteTask(st, id, Failed(d)).state.tasks == st.tasks
    ensures FetchTasks(st, Failed(d)).tasks == st.tasks
  {
  }
}

=== FILE: tasks.dfy ===
/** The owner-scoped task store of backend/app/crud.py: `get_tarea`,
    `get_tareas`, `create_tarea`, `update_tarea`, `delete_tarea`.

    The table is a sequence of rows in insertion order. The `ORDER BY` that
    `get_tareas` asks the database for is an oracle that may put the rows in
    any order but must keep them all (a permutation). The `ilike` search is
    SQLite's `lower(column) LIKE lower(pattern)`, with `%` and `_` of the
    search text acting as wildcards. */
module Tasks {
  import opened Common

  datatype Task = Task(
    id: int,
    titulo: string,
    descripcion: Option<string>,
    completado: bool,
    prioridad: int,
    owner: int)

  type TaskTable = seq<Task>

  /** The validated body of a create request. */
  datatype Fields = Fields(titulo: string, descripcion: Option<string>, completado: bool, prioridad: int)

  /** The fields a client explicitly set in an update request;
      `descripcion` may be set to null, hence the nested option. */
  datatype Patch = Patch(
    titulo: Option<string>,
    descripcion: Option<Option<string>>,
    completado: Option<bool>,
    prioridad: Option<int>)

  /** Writes the supplied fields of `p` into `t` (`model_dump(exclude_unset=True)`
      and `setattr` for each key). The id and the owner are never touched. */
  function ApplyPatch(t: Task, p: Patch): (r: Task)
    ensures r.id == t.id && r.owner == t.owner
    ensures p.titulo.None? ==> r.titulo == t.titulo
    ensures p.titulo.Some? ==> r.titulo == p.titulo.value
    ensures p.descripcion.None? ==> r.descripcion == t.descripcion
    ensures p.descripcion.Some? ==> r.descripcion == p.descripcion.value
    ensures p.completado.None? ==> r.completado == t.completado
    ensures p.completado.Some? ==> r.completado == p.completado.value
    ensures p.prioridad.None? ==> r.prioridad == t.prioridad
    ensures p.prioridad.Some? ==> r.prioridad == p.prioridad.value
  {
    Task(t.id,
         p.titulo.GetOr(t.titulo),
         p.descripcion.GetOr(t.descripcion),
         p.completado.GetOr(t.completado),
         p.prioridad.GetOr(t.prioridad),
         t.owner)
  }

  const NO_CHANGES: Patch := Patch(None, None, None, None)

  /** An empty update changes nothing, and applying the same update twice is
      applying it once. */
  lemma PatchLaws(t: Task, p: Patch)
    ensures ApplyPatch(t, NO_CHANGES) == t
    ensures ApplyPatch(ApplyPatch(t, p), p) == ApplyPatch(t, p)
  {
  }

  /** Row `t` is task `id` of user `owner`. */
  predicate Owned(t: Task, id: int, owner: int) {
    t.id == id && t.owner == owner
  }

  /** `get_tarea`: the first row with both that id and that owner. */
  function GetTarea(tasks: TaskTable, id: int, owner: int): (r: Option<Task>)
    ensures r.Some? <==> exists i :: 0 <= i < |tasks| && Owned(tasks[i], id, owner)
    ensures r.Some? ==> r.value in tasks && Owned(r.value, id, owner)
  {
    if |tasks| == 0 then None
    else if Owned(tasks[0], id, owner) then Some(tasks[0])
    else
      var r := GetTarea(tasks[1..], id, owner);
      assert forall i :: 1 <= i < |tasks| ==> tasks[i] == tasks[1..][i - 1];
      r
  }

  /** Task ids are unique (the primary key). */
  predicate UniqueIds(tasks: TaskTable) {
    forall i, j :: 0 <= i < j < |tasks| ==> tasks[i].id != tasks[j].id
  }

  datatype Inserted = Inserted(tasks: TaskTable, task: Task)

  /** `create_tarea`: appends a row for `owner` with a fresh id. */
  function CreateTarea(tasks: TaskTable, f: Fields, owner: int): (r: Inserted)
    ensures r.tasks == tasks + [r.task]
    ensures r.task == Task(r.task.id, f.titulo, f.descripcion, f.completado, f.prioridad, owner)
    ensures forall i :: 0 <= i < |tasks| ==> tasks[i].id != r.task.id
    ensures UniqueIds(tasks) ==> UniqueIds(r.tasks)
  {
    var ids := seq(|tasks|, i requires 0 <= i < |tasks| => tasks[i].id);
    assert forall i :: 0 <= i < |tasks| ==> tasks[i].id == ids[i];
    var t := Task(FreshId(ids), f.titulo, f.descripcion, f.completado, f.prioridad, owner);
    Inserted(tasks + [t], t)
  }

  /** `update_tarea` on the row the handler found: the row with that id gets
      the patch, every other row stays. */
  function UpdateTarea(tasks: TaskTable, id: int, p: Patch): (r: TaskTable)
    ensures |r| == |tasks|
    ensures forall i :: 0 <= i < |tasks| && tasks[i].id != id ==> r[i] == tasks[i]
    ensures forall i :: 0 <= i < |tasks| && tasks[i].id == id ==> r[i] == ApplyPatch(tasks[i], p)
  {
    seq(|tasks|, i requires 0 <= i < |tasks| => if tasks[i].id == id then ApplyPatch(tasks[i], p) else tasks[i])
  }

  /** `delete_tarea`: the row with that id goes, the others keep their order. */
  function DeleteTarea(tasks: TaskTable, id: int): (r: TaskTable)
    ensures forall t :: t in r <==> t in tasks && t.id != id
    ensures |r| <= |tasks|
  {
    if |tasks| == 0 then []
    else (if tasks[0].id == id then [] else [tasks[0]]) + DeleteTarea(tasks[1..], id)
  }

  /** After an update the owner reads back the patched task; after a delete
      the task is gone for every owner. */
  lemma UpdateThenGet(tasks: TaskTable, id: int, owner: int, p: Patch)
    requires UniqueIds(tasks)
    requires GetTarea(tasks, id, owner).Some?
    ensures GetTarea(UpdateTarea(tasks, id, p), id, owner) == Some(ApplyPatch(GetTarea(tasks, id, owner).value, p))
  {
    var found := GetTarea(tasks, id, owner).value;
    var u := UpdateTarea(tasks, id, p);
    var i :| 0 <= i < |tasks| && tasks[i] == found;
    assert Owned(u[i], id, owner);
    var r := GetTarea(u, id, owner);
    var j :| 0 <= j < |u| && u[j] == r.value;
    assert tasks[j].id == id;
    assert i == j;
  }

  lemma DeleteThenGet(tasks: TaskTable, id: int, owner: int)
    ensures GetTarea(DeleteTarea(tasks, id), id, owner) == None
  {
  }

  /* ---------- listing ---------- */

  /** The columns of the `tareas` table, by which a listing may be ordered. */
  const SORT_FIELDS: seq<string> :=
    ["id", "titulo", "descripcion", "completado", "prioridad", "fecha_vencimiento",
     "created_at", "updated_at", "usuario_id"]

  /** The database's `ORDER BY column [DESC]`. */
  type Sorter = (TaskTable, string, bool) -> TaskTable

  /** Ordering returns the same rows. */
  ghost predicate Permutes(sort: Sorter) {
    forall ts, col, desc :: multiset(sort(ts, col, desc)) == multiset(ts)
  }

  /** SQLite `LIKE` after `lower()` on both sides: `%` matches any run of
      characters, `_` any one character, anything else itself up to ASCII
      case. */
  predicate Like(s: string, pat: string)
    decreases |s| + |pat|
  {
    if |pat| == 0 then |s| == 0
    else if pat[0] == '%' then Like(s, pat[1..]) || (|s| > 0 && Like(s[1..], pat))
    else if pat[0] == '_' then |s| > 0 && Like(s[1..], pat[1..])
    else |s| > 0 && AsciiLowerChar(s[0]) == AsciiLowerChar(pat[0]) && Like(s[1..], pat[1..])
  }

  /** The optional query parameters of a listing. */
  datatype Filters = Filters(completado: Option<bool>, prioridad: Option<int>, buscar: Option<string>)

  /** `ilike('%buscar%')` on the title, or on a non-null description. */
  predicate Mentions(t: Task, b: string) {
    var pat := "%" + b + "%";
    Like(t.titulo, pat) || (t.descripcion.Some? && Like(t.descripcion.value, pat))
  }

  /** All the filters of `get_tareas` together; an empty search text is no
      filter. */
  predicate Keep(t: Task, owner: int, f: Filters) {
    && t.owner == owner
    && (f.completado.Some? ==> t.completado == f.completado.value)
    && (f.prioridad.Some? ==> t.prioridad == f.prioridad.value)
    && (f.buscar.Some? && f.buscar.value != "" ==> Mentions(t, f.buscar.value))
  }

  /** The rows the filtered query selects, in table order. */
  function Select(tasks: TaskTable, owner: int, f: Filters): (r: TaskTable)
    ensures forall t :: t in r <==> t in tasks && Keep(t, owner, f)
    ensures |r| <= |tasks|
  {
    if |tasks| == 0 then []
    else (if Keep(tasks[0], owner, f) then [tasks[0]] else []) + Select(tasks[1..], owner, f)
  }

  /** `OFFSET skip LIMIT limit` as SQLite reads them: a negative offset is no
      offset and a negative limit is no limit. */
  function Page(ts: TaskTable, skip: int, limit: int): (r: TaskTable)
    ensures limit >= 0 ==> |r| <= limit
    ensures var start := if skip <= 0 then 0 else if skip < |ts| then skip else |ts|;
            && |r| <= |ts| - start
            && r == ts[start..start + |r|]
            && (limit < 0 || |ts| - start <= limit ==> |r| == |ts| - start)
            && (0 <= limit <= |ts| - start ==> |r| == limit)
  {
    var start := if skip <= 0 then 0 else if skip < |ts| then skip else |ts|;
    var rest := ts[start..];
    if limit < 0 || |rest| <= limit then rest else rest[..limit]
  }

  /** `orden.lower() == "desc"`; no non-ASCII character lower-cases into
      these letters, so ASCII lower-casing decides it. */
  predicate IsDesc(orden: string) {
    AsciiLower(orden) == "desc"
  }

  datatype Listing = Listing(items: TaskTable, total: int)

  function BadSortField(ordenarPor: string): HttpError {
    HttpError(422, "Campo de ordenamiento '" + ordenarPor + "' no válido")
  }

  /** `get_tareas`: the owner's rows passing every filter, counted before
      paging, then ordered, then paged. An unknown sort column is refused
      with 422 after the count. */
  function GetTareas(tasks: TaskTable, owner: int, skip: int, limit: int, f: Filters,
                     ordenarPor: string, orden: string, sort: Sorter): (r: Result<Listing>)
    ensures r.Err? <==> ordenarPor !in SORT_FIELDS
    ensures r.Err? ==> r.error == BadSortField(ordenarPor)
    ensures r.Ok? ==> r.value.total == |Select(tasks, owner, f)|
    ensures r.Ok? && limit >= 0 ==> |r.value.items| <= limit
    ensures r.Ok? && Permutes(sort) ==> multiset(r.value.items) <= multiset(Select(tasks, owner, f))
    ensures r.Ok? && Permutes(sort) ==>
              exists o :: multiset(o) == multiset(Select(tasks, owner, f)) && r.value.items == Page(o, skip, limit)
  {
    var selected := Select(tasks, owner, f);
    var total := |selected|;
    if ordenarPor !in SORT_FIELDS then Err(BadSortField(ordenarPor))
    else
      var ordered := sort(selected, ordenarPor, IsDesc(orden));
      var items := Page(ordered, skip, limit);
      assert multiset(items) <= multiset(ordered) by {
        var start := if skip <= 0 then 0 else if skip < |ordered| then skip else |ordered|;
        assert ordered == ordered[..start] + items + ordered[start + |items|..];
      }
      assert Permutes(sort) ==> multiset(ordered) == multiset(selected);
      Ok(Listing(items, total))
  }

  /** Every listed task belongs to the caller and passes the filters, and a
      first page at least as large as the total lists every selected task. */
  lemma ListingSound(tasks: TaskTable, owner: int, skip: int, limit: int, f: Filters,
                     ordenarPor: string, orden: string, sort: Sorter)
    requires Permutes(sort)
    requires GetTareas(tasks, owner, skip, limit, f, ordenarPor, orden, sort).Ok?
    ensures var l := GetTareas(tasks, owner, skip, limit, f, ordenarPor, orden, sort).value;
            && (forall t :: t in l.items ==> t in tasks && Keep(t, owner, f))
            && (skip <= 0 && (limit < 0 || limit >= l.total) ==> multiset(l.items) == multiset(Select(tasks, owner, f)))
  {
    var l := GetTareas(tasks, owner, skip, limit, f, ordenarPor, orden, sort).value;
    var selected := Select(tasks, owner, f);
    forall t | t in l.items ensures t in tasks && Keep(t, owner, f) {
      assert t in multiset(l.items);
      assert t in multiset(selected);
    }
  }

  /** The total does not depend on paging or ordering. */
  lemma TotalIgnoresPaging(tasks: TaskTable, owner: int, f: Filters, ordenarPor: string, sort: Sorter,
                           skip1: int, limit1: int, orden1: string, skip2: int, limit2: int, orden2: string)
    requires ordenarPor in SORT_FIELDS
    ensures GetTareas(tasks, owner, skip1, limit1, f, ordenarPor, orden1, sort).value.total
         == GetTareas(tasks, owner, skip2, limit2, f, ordenarPor, orden2, sort).value.total
  {
  }

  /* ---------- the search filter ---------- */

  /** No wildcard in `b`. */
  predicate Literal(b: string) {
    '%' !in b && '_' !in b
  }

  lemma {:induction false} LikeAnything(s: string)
    ensures Like(s, "%")
    decreases |s|
  {
    if |s| > 0 {
      LikeAnything(s[1..]);
    }
  }

  lemma LowerTail(s: string)
    requires |s| > 0
    ensures AsciiLower(s)[1..] == AsciiLower(s[1..])
    ensures AsciiLower(s)[0] == AsciiLowerChar(s[0])
  {
  }

  /** `q%` matches exactly the strings that start with `q`, up to ASCII case. */
  lemma {:induction false} LikePrefix(s: string, q: string)
    requires Literal(q)
    ensures Like(s, q + "%") <==> StartsWith(AsciiLower(s), AsciiLower(q))
    decreases |q|
  {
    if |q| == 0 {
      assert q + "%" == "%";
      LikeAnything(s);
    } else {
      assert (q + "%")[0] == q[0];
      assert (q + "%")[1..] == q[1..] + "%";
      LikePrefix(if |s| > 0 then s[1..] else s, q[1..]);
      LowerTail(q);
      if |s| > 0 {
        LowerTail(s);
        var ls, lq := AsciiLower(s), AsciiLower(q);
        if StartsWith(ls, lq) {
          assert ls[1..][..|lq| - 1] == lq[1..];
        }
        if ls[0] == lq[0] && StartsWith(ls[1..], lq[1..]) {
          assert ls[..|lq|] == [ls[0]] + ls[1..][..|lq| - 1];
        }
      }
    }
  }

  /** For a search text without wildcards, the `ilike('%b%')` filter is a
      case-insensitive (ASCII) substring test. */
  lemma {:induction false} SearchIsSubstring(s: string, b: string)
    requires Literal(b)
    ensures Like(s, "%" + b + "%") <==> Contains(AsciiLower(s), AsciiLower(b))
    decreases |s|
  {
    var pat := "%" + b + "%";
    assert pat[0] == '%';
    assert pat[1..] == b + "%";
    LikePrefix(s, b);
    if |s| > 0 {
      SearchIsSubstring(s[1..], b);
      LowerTail(s);
    }
  }
}

=== FILE: tokens.dfy ===
/** Token minting and checking (app/security.py: `create_token`,
    `create_access_token`, `create_refresh_token`, `create_tokens_for_user`,
    `verify_token`).

    python-jose is an oracle: `encode` signs a claim set with a key, `decode`
    checks a token against a key at a given time. Times are whole seconds
    since the epoch, which is how the `exp` claim is encoded. */
module Tokens {
  import opened Common
  import Config
  import Users

  /** The claims the source puts in a token. Every claim may be absent from a
      decoded payload, so each is optional. */
  datatype Claims = Claims(
    sub: Option<string>,
    typ: Option<string>,
    userId: Option<int>,
    stampMs: Option<int>,
    exp: Option<int>)

  /** The three outcomes of `jwt.decode`: the payload, `ExpiredSignatureError`,
      or any other `JWTError`. */
  datatype Decoded = Valid(claims: Claims) | Expired | Invalid

  datatype Codec = Codec(encode: (Claims, string) -> string, decode: (string, string, int) -> Decoded)

  /** A token decodes, under the key that signed it, to the claims it was
      made from until its `exp` has passed, and as expired afterwards; under
      any other key it does not decode. A token is base64url text joined by
      dots, so it holds no space. */
  ghost predicate Sound(c: Codec) {
    && (forall cl, key :: ' ' !in c.encode(cl, key))
    && (forall cl, key, now :: c.decode(c.encode(cl, key), key, now)
          == if cl.exp.Some? && cl.exp.value < now then Expired else Valid(cl))
    && (forall cl, key, other, now :: key != other ==> c.decode(c.encode(cl, key), other, now) == Invalid)
  }

  /** `SECRET_KEY` signs access tokens, `REFRESH_SECRET_KEY` refresh tokens. */
  datatype Keys = Keys(secret: string, refreshSecret: string)

  const ACCESS: string := "access"
  const REFRESH: string := "refresh"
  const BEARER: string := "bearer"

  /** `create_token`: the given claims with `exp` set to `now + delta`, signed
      with `key`. The caller's claims are a value and stay as they were. */
  function CreateToken(codec: Codec, data: Claims, delta: int, key: string, now: int): (token: string)
    ensures Sound(codec) ==>
              forall t :: t <= now + delta ==> codec.decode(token, key, t) == Valid(data.(exp := Some(now + delta)))
    ensures Sound(codec) ==>
              forall t :: t > now + delta ==> codec.decode(token, key, t) == Expired
  {
    codec.encode(data.(exp := Some(now + delta)), key)
  }

  /** `create_access_token`: `ACCESS_TOKEN_EXPIRE_MINUTES` of validity under
      `SECRET_KEY`. */
  function CreateAccessToken(codec: Codec, keys: Keys, data: Claims, now: int): (token: string)
    ensures Sound(codec) ==>
              codec.decode(token, keys.secret, now + Config.ACCESS_TOKEN_SECONDS)
                == Valid(data.(exp := Some(now + Config.ACCESS_TOKEN_SECONDS)))
    ensures Sound(codec) ==> codec.decode(token, keys.secret, now + Config.ACCESS_TOKEN_SECONDS + 1) == Expired
  {
    CreateToken(codec, data, Config.ACCESS_TOKEN_SECONDS, keys.secret, now)
  }

  /** The claims of a refresh token: the email as subject, type "refresh",
      the user id, the issue time in milliseconds, and an expiry
      `REFRESH_TOKEN_EXPIRE_DAYS` away. */
  function RefreshClaims(user: Users.User, now: int, stampMs: int): Claims {
    Claims(Some(user.email), Some(REFRESH), Some(user.id), Some(stampMs), Some(now + Config.REFRESH_TOKEN_SECONDS))
  }

  /** `create_refresh_token` (app/security.py), signed with
      `REFRESH_SECRET_KEY`. */
  function CreateRefreshToken(codec: Codec, keys: Keys, user: Users.User, now: int, stampMs: int): (token: string)
    ensures Sound(codec) ==>
              forall t :: t <= now + Config.REFRESH_TOKEN_SECONDS ==>
                codec.decode(token, keys.refreshSecret, t) == Valid(RefreshClaims(user, now, stampMs))
    ensures Sound(codec) ==>
              forall t :: t > now + Config.REFRESH_TOKEN_SECONDS ==> codec.decode(token, keys.refreshSecret, t) == Expired
  {
    codec.encode(RefreshClaims(user, now, stampMs), keys.refreshSecret)
  }

  /** The claims the source passes for an access token. */
  function AccessData(user: Users.User): Claims {
    Claims(Some(user.email), Some(ACCESS), Some(user.id), None, None)
  }

  datatype TokenPair = TokenPair(accessToken: string, refreshToken: string, tokenType: string)

  /** `create_tokens_for_user`: an access token for the user's email with type
      "access", a refresh token, and the "bearer" token type. */
  function CreateTokensForUser(codec: Codec, keys: Keys, user: Users.User, now: int, stampMs: int): (p: TokenPair)
    ensures p.tokenType == BEARER
    ensures p.refreshToken == CreateRefreshToken(codec, keys, user, now, stampMs)
    ensures Sound(codec) ==>
              forall t :: t <= now + Config.ACCESS_TOKEN_SECONDS ==>
                && codec.decode(p.accessToken, keys.secret, t).Valid?
                && codec.decode(p.accessToken, keys.secret, t).claims.sub == Some(user.email)
                && codec.decode(p.accessToken, keys.secret, t).claims.typ == Some(ACCESS)
                && codec.decode(p.accessToken, keys.secret, t).claims.userId == Some(user.id)
  {
    TokenPair(CreateAccessToken(codec, keys, AccessData(user), now),
              CreateRefreshToken(codec, keys, user, now, stampMs),
              BEARER)
  }

  const TOKEN_EXPIRED: HttpError := HttpError(401, "El token ha expirado")

  /** `verify_token`: the payload, `None` for a token that does not decode,
      or 401 "El token ha expirado" for one that has expired. */
  function VerifyToken(codec: Codec, token: string, key: string, now: int): (r: Result<Option<Claims>>)
    ensures r.Err? <==> codec.decode(token, key, now) == Expired
    ensures r.Err? ==> r.error == TOKEN_EXPIRED
    ensures r == Ok(None) <==> codec.decode(token, key, now) == Invalid
    ensures r.Ok? && r.value.Some? ==> codec.decode(token, key, now) == Valid(r.value.value)
  {
    match codec.decode(token, key, now)
    case Valid(c) => Ok(Some(c))
    case Expired => Err(TOKEN_EXPIRED)
    case Invalid => Ok(None)
  }

  /** A token made by `create_token` verifies to its claims up to and
      including its expiry second, verifies as expired after it, and does not
      verify at all under another key. */
  lemma VerifyCreated(codec: Codec, data: Claims, delta: int, key: string, other: string, now: int, t: int)
    requires Sound(codec)
    ensures var token := CreateToken(codec, data, delta, key, now);
            && (t <= now + delta ==> VerifyToken(codec, token, key, t) == Ok(Some(data.(exp := Some(now + delta)))))
            && (t > now + delta ==> VerifyToken(codec, token, key, t) == Err(TOKEN_EXPIRED))
            && (other != key ==> VerifyToken(codec, token, other, t) == Ok(None))
  {
    var token := CreateToken(codec, data, delta, key, now);
    if other != key {
      assert codec.decode(codec.encode(data.(exp := Some(now + delta)), key), other, t) == Invalid;
    }
  }
}

=== FILE: users.dfy ===
/** The user table and the password hasher: registration (backend/app/crud.py,
    `create_usuario`), the last-login update, and password authentication
    (app/security.py, `authenticate_user`).

    The table is a sequence of rows in insertion order, which is the order in
    which `query(...).first()` meets them. bcrypt is an oracle: a hash
    function of the password and a salt (passlib draws a fresh salt per
    call; here the salt is a parameter) and a verifier. */
module Users {
  import opened Common

  datatype User = User(
    id: int,
    email: string,
    username: string,
    hashedPassword: string,
    isActive: bool,
    lastLogin: Option<int>)

  type UserTable = seq<User>

  type Salt = string

  /** passlib's `CryptContext(schemes=["bcrypt"])`: `hash(password, salt)` and
      `verify(password, stored_hash)`. `key` is the part of a password bcrypt
      actually reads: its first 72 bytes, the rest being dropped silently. */
  datatype Hasher = Hasher(hash: (string, Salt) -> string, verify: (string, string) -> bool,
                           key: string -> string)

  /** What the source relies on from bcrypt: a hash verifies against exactly
      the passwords with the same key as the one hashed (so two passwords that
      agree in their first 72 bytes verify alike), and different salts give
      different hashes. */
  ghost predicate Sound(h: Hasher) {
    && (forall p, q, s :: h.verify(q, h.hash(p, s)) <==> h.key(q) == h.key(p))
    && (forall p, s1, s2 :: s1 != s2 ==> h.hash(p, s1) != h.hash(p, s2))
  }

  /** Ids, emails and usernames are unique columns. */
  predicate Unique(users: UserTable) {
    forall i, j :: 0 <= i < j < |users| ==>
      && users[i].id != users[j].id
      && users[i].email != users[j].email
      && users[i].username != users[j].username
  }

  /** The column a user lookup filters on, with the value it must equal. */
  datatype Key = EmailIs(email: string) | IdIs(id: int)

  predicate Matches(u: User, k: Key) {
    match k
    case EmailIs(e) => u.email == e
    case IdIs(id) => u.id == id
  }

  /** The position of the first row matching `k`: the `.first()` of a
      filtered query. */
  function First(users: UserTable, k: Key): (r: Option<nat>)
    ensures r.Some? ==> r.value < |users| && Matches(users[r.value], k)
    ensures r.Some? ==> forall j :: 0 <= j < r.value ==> !Matches(users[j], k)
    ensures r.None? ==> forall j :: 0 <= j < |users| ==> !Matches(users[j], k)
  {
    if |users| == 0 then None
    else if Matches(users[0], k) then Some(0)
    else match First(users[1..], k)
      case None => None
      case Some(i) => Some(i + 1)
  }

  predicate HasEmail(users: UserTable, email: string) {
    exists i :: 0 <= i < |users| && users[i].email == email
  }

  predicate HasUsername(users: UserTable, username: string) {
    exists i :: 0 <= i < |users| && users[i].username == username
  }

  /** `filter(Usuario.email == email).first()`. */
  function ByEmail(users: UserTable, email: string): (r: Option<User>)
    ensures r.Some? <==> HasEmail(users, email)
    ensures r.Some? ==> r.value in users && r.value.email == email
  {
    match First(users, EmailIs(email))
    case None => None
    case Some(i) => Some(users[i])
  }

  /** `filter(Usuario.id == id).first()`. */
  function ById(users: UserTable, id: int): (r: Option<User>)
    ensures r.Some? <==> exists i :: 0 <= i < |users| && users[i].id == id
    ensures r.Some? ==> r.value in users && r.value.id == id
  {
    match First(users, IdIs(id))
    case None => None
    case Some(i) => Some(users[i])
  }

  datatype Created = Created(users: UserTable, user: User)

  const EMAIL_TAKEN: HttpError := HttpError(400, "El email ya está registrado")
  const USERNAME_TAKEN: HttpError := HttpError(400, "El nombre de usuario ya está en uso")

  /** `create_usuario`: a taken email is refused first, then a taken
      username; otherwise a new active row is appended that stores the
      password's hash under the given salt and has never logged in. */
  function CreateUsuario(users: UserTable, email: string, username: string, password: string,
                         salt: Salt, hasher: Hasher): (r: Result<Created>)
    ensures HasEmail(users, email) ==> r == Err(EMAIL_TAKEN)
    ensures !HasEmail(users, email) && HasUsername(users, username) ==> r == Err(USERNAME_TAKEN)
    ensures !HasEmail(users, email) && !HasUsername(users, username) ==>
              && r.Ok?
              && r.value.users == users + [r.value.user]
              && r.value.user.email == email
              && r.value.user.username == username
              && r.value.user.hashedPassword == hasher.hash(password, salt)
              && r.value.user.isActive
              && r.value.user.lastLogin.None?
              && forall i :: 0 <= i < |users| ==> users[i].id != r.value.user.id
    ensures r.Ok? && Unique(users) ==> Unique(r.value.users)
  {
    if HasEmail(users, email) then Err(EMAIL_TAKEN)
    else if HasUsername(users, username) then Err(USERNAME_TAKEN)
    else
      var ids := seq(|users|, i requires 0 <= i < |users| => users[i].id);
      assert forall i :: 0 <= i < |users| ==> users[i].id == ids[i];
      var u := User(FreshId(ids), email, username, hasher.hash(password, salt), true, None);
      Ok(Created(users + [u], u))
  }

  /** `update_last_login`: sets the last-login time of the row with `id`,
      leaving every other row and every other column as it was. */
  function UpdateLastLogin(users: UserTable, id: int, now: int): (r: UserTable)
    ensures |r| == |users|
    ensures forall i :: 0 <= i < |users| ==>
              r[i] == if users[i].id == id then users[i].(lastLogin := Some(now)) else users[i]
  {
    seq(|users|, i requires 0 <= i < |users| =>
      if users[i].id == id then users[i].(lastLogin := Some(now)) else users[i])
  }

  /** `authenticate_user`: the first user with that email, when the password
      verifies against its stored hash (the source returns `False`
      otherwise). The active flag is not consulted. */
  function AuthenticateUser(users: UserTable, email: string, password: string, hasher: Hasher): (r: Option<User>)
    ensures r.Some? <==> ByEmail(users, email).Some? && hasher.verify(password, ByEmail(users, email).value.hashedPassword)
    ensures r.Some? ==> r.value in users && r.value.email == email
  {
    match ByEmail(users, email)
    case None => None
    case Some(u) => if hasher.verify(password, u.hashedPassword) then Some(u) else None
  }

  /** A freshly registered user authenticates with the password it registered
      with, and with another password exactly when bcrypt reads the same key
      from it. */
  lemma RegisterThenLogin(users: UserTable, email: string, username: string, password: string,
                          salt: Salt, hasher: Hasher, other: string)
    requires Sound(hasher)
    requires CreateUsuario(users, email, username, password, salt, hasher).Ok?
    ensures var c := CreateUsuario(users, email, username, password, salt, hasher).value;
            && AuthenticateUser(c.users, email, password, hasher) == Some(c.user)
            && (hasher.key(other) != hasher.key(password) ==> AuthenticateUser(c.users, email, other, hasher) == None)
            && (hasher.key(other) == hasher.key(password) ==> AuthenticateUser(c.users, email, other, hasher) == Some(c.user))
  {
    var c := CreateUsuario(users, email, username, password, salt, hasher).value;
    assert hasher.verify(password, hasher.hash(password, salt)) <==> hasher.key(password) == hasher.key(password);
    assert hasher.verify(other, hasher.hash(password, salt)) <==> hasher.key(other) == hasher.key(password);
    var i := First(c.users, EmailIs(email));
    assert c.users[|users|].email == email;
    assert i.Some? && i.value == |users| by {
      forall j | 0 <= j < |users| ensures c.users[j].email != email {
        assert c.users[j] == users[j];
      }
    }
  }
}
